=== FILE: README.md ===
# kdb_cludo, modelled in Dafny

This project models the decision logic of a Drupal module that embeds Cludo
site search. It covers five pieces:

- **The profile registry.** Five fixed search profiles: main, article, event, help and help_en. Each profile pairs a Cludo search page (a route and an engine) with the listing view it can replace.
- **The redirect subscriber.** On each request it decides whether to redirect from a Cludo page to its listing view, or the other way round, or to deny access.
- **The Cludo API client.** It covers credentials, profile selection, the search call and URL pushing for indexing and un-indexing.
- **The two search-page controllers.** They cover the access gate, template and input selectors, title, label, breadcrumb and cache metadata.
- **The config override.** It lets the module's paragraph type be added to articles and pages.

Modules, in dependency order:

| module | file | models |
|---|---|---|
| `Wrappers` | wrappers.dfy | `Option`, `Result` (a value, or the exception thrown) and the exceptions the code raises |
| `Php` | php.dfy | the PHP values the decisions read, truthiness (`if`, `empty`), loose `==` on nullable strings, `in_array`, decimal interpolation of integers |
| `Profiles` | profiles.dfy | `CludoProfile`: the record, `get`, route-to-URL resolution, editor settings, client-side settings |
| `Registry` | registry.dfy | `CludoProfileService`: `getProfile`, `getProfiles` |
| `Redirects` | redirects.dfy | `SearchPageRedirects::detectRedirectType`, its loop and a declarative account of it |
| `CludoApi` | cludo_api.dfy | `CludoApiService` as a state machine with a log of the requests handed to the HTTP client |
| `Render` | render.dfy | what both controllers share: request, host services, template choice, render array |
| `SearchPage` | search_page.dfy | `CludoSearchPage` (profile resolved from the route) |
| `SearchBase` | search_base.dfy | `CludoSearchBase` and its five per-profile subclasses |
| `ConfigOverrides` | config_overrides.dfy | `ConfigOverrides` |

How the host system appears in the model:

- **Routes:** `Url::fromRoute` is a parameter, `Router = string -> Option<Url>`. `None` stands both for a route that does not exist and for one whose resolution throws. A URL is represented by its `toString()` form.
- **Editor config:** `kdb_cludo.settings` is a `map<string, Value>` keyed by the dotted config key, for example `profiles.main` or `customer_id`.
- **HTTP client:** it is a parameter of type `Transport = Request -> Result<Response>`. Every request the service hands to it is appended to the client's `requests` log, so "no request is issued" is a statement about that log.
- **Other host services:** node storage, the breadcrumb helper and the path validator are the fields of `Render.Host`.

### Behaviour of the code worth knowing

- **`showFilters` is never a declared property of the profile class.**
  - The registry passes `showFilters: FALSE` for main to the profile constructor, which declares no such parameter; PHP raises an Error for that call (see Findings).
  - The newer controller reads `$this->profile->showFilters` (src/Controller/CludoSearchPage.php:92). As written, that read yields null with a warning, so every page it serves would take the simple template.
  - The model assumes the evident intent instead: a profile field that is `false` for main, as passed, and `true` for the other four, the default of `CludoSearchBase::$showFilters` (src/Controller/CludoSearchBase.php:26). This value is an assumption, not what the code computes.
- **The settings readers are not defined on the profile class.** `getEnabled`, `getTitle`, `getShowTitle` and `getInputPlaceholder` are called but not defined. The model reads them as the keys `enabled`, `title`, `show_title` and `input_placeholder` of `getConfigSettings()`. That is the shape the older controller reads and the settings form stores.
- **The two event listing routes differ.** The registry names `entity.eventinstance.collection` as the event listing route; the older event controller names `view.events.all`. Both are kept, and `SearchBase.FixturesMatchRegistry` states the difference.
- **The redirect loop does not stop at the first matching profile.** Only a disabled profile's own Cludo route breaks out of it. A view-route match records the target and carries on, so a later match overwrites it.
- **A request with no route name loosely equals the missing view route of help and help_en.** When help_en is enabled, the request is redirected to the English help search page, since help_en comes later and overwrites the target. Otherwise it goes to the help search page when help is enabled, and nowhere when neither is.
- **The client-side settings carry no customer id.** They hold exactly `searchType`, `engineId`, `language`, `searchUrl` and `searchInputSelectors`.

## Model

| member | source | states |
|---|---|---|
| Php.FalsyValues | src/EventSubscriber/SearchPageRedirects.php:48 | a value is falsy exactly when it is null, false, 0, "", "0", or an empty list or map |
| Php.InArray | src/EventSubscriber/SearchPageRedirects.php:42 | found exactly when the needle is listed verbatim, or is null with the empty string listed, or is the empty string with null listed |
| Php.Decimal | src/Services/CludoApiService.php:158-160 | a non-negative integer is written as canonical digits (no leading zero, "0" for zero) that denote it, a negative one as a minus sign followed by the canonical digits of its magnitude |
| Php.Interpolate | src/Services/CludoApiService.php:158-160 | string interpolation: a string is kept, null and false give "", true gives "1", an integer gives its canonical decimal digits, an array gives "Array" |
| Php.LooseEqCharacterised | src/EventSubscriber/SearchPageRedirects.php:42-60 | a strict route match is always also a loose `in_array` match; the two differ only for null against the empty string |
| Php.NatDecimal | src/Services/CludoApiService.php:158-160 | an integer interpolated into a URL is written as canonical decimal digits that denote that integer |
| Profiles.NewProfile | src/CludoProfile.php:27-43 | the label and the settings snapshot are assigned together, and exactly when the translatable label is non-empty |
| Profiles.Get | src/CludoProfile.php:50-52 | each declared property reads as the profile's field, an unassigned label, config or view route as null, and an unknown name as null |
| Profiles.GetAfterNew | src/CludoProfile.php:27-52 | reading back a freshly built profile gives each constructor argument: id, translatable label, type, Cludo route, engine, language, view id and view route; label and config are null exactly when the label is empty; `showFilters` reads as null |
| Profiles.GetUrl | src/CludoProfile.php:71-82 | no URL without a non-empty route name; otherwise exactly what route resolution gives, with a failure giving no URL |
| Profiles.UrlsConsultOnlyTheirRoute | src/CludoProfile.php:57-66 | the Cludo URL depends only on the Cludo route and the view URL only on the view route; a profile without a view route has no view URL |
| Profiles.ConfigSettings | src/CludoProfile.php:90-92 | the stored `profiles.<id>` map; an empty map when nothing, or something that is not a string-keyed map, is stored under that key |
| Profiles.JsSettingsOf | src/CludoProfile.php:100-108 | type, engine and language are carried over unchanged; the search URL exists exactly when the Cludo route resolves; the selectors are the two default ones |
| Registry.DefinitionFor | src/Services/CludoProfileService.php:40-95 | the exact-match `switch` knows precisely the five ids and returns the definition carrying the requested id |
| Registry.GetProfile | src/Services/CludoProfileService.php:39-96 | a profile is returned exactly for the five ids, case-sensitively, carrying the requested id and the editor settings |
| Registry.Collect | src/Services/CludoProfileService.php:23-33 | the filtered loop yields no more profiles than ids, and each is what the lookup of its own id returns |
| Registry.KnownIdsMembers | src/Services/CludoProfileService.php:25-31 | the ids the loop keeps are exactly the given ids that the lookup knows |
| Registry.CollectInOrder | src/Services/CludoProfileService.php:25-31 | the loop yields one profile per known id, in the order of the ids, each the lookup of that id |
| Registry.CollectKeepsFound | src/Services/CludoProfileService.php:25-31 | every profile the lookup finds for a given id appears in the result |
| Registry.CollectKnown | src/Services/CludoProfileService.php:25-31 | when every id is known nothing is skipped and the order of the ids is kept |
| Registry.GetProfiles | src/Services/CludoProfileService.php:18-34 | exactly five profiles, main, article, event, help, help_en in that order, each the lookup of its id |
| Registry.RegistryInitialised | src/CludoProfile.php:37-39 | every registry profile has its settings snapshot, because every registry label is non-empty |
| Registry.ProfileFields | src/Services/CludoProfileService.php:41-92 | the i-th listed profile has the route, engine, language, view and filter values of the i-th `switch` case |
| Registry.DefinitionsDistinct | src/Services/CludoProfileService.php:42-91 | no two registry entries share an id, a Cludo route or an engine id |
| Registry.RegistryDistinct | src/Services/CludoProfileService.php:42-91 | the listed profiles have pairwise distinct ids, Cludo routes and engine ids |
| Registry.DefinitionRoutes | src/Services/CludoProfileService.php:46-89 | no Cludo route is also a view route, and only main's view route is the editorial listing |
| Registry.RegistryRoutes | src/Services/CludoProfileService.php:41-92 | across the listed profiles no Cludo route is also a view route; the editorial listing belongs to main alone |
| Registry.ViewsOnlyForListings | src/Services/CludoProfileService.php:41-92 | exactly main, article and event have a view id and a view route |
| Registry.LanguageByProfile | src/Services/CludoProfileService.php:84-92 | the language is English for help_en and Danish for the other four |
| Registry.FirstUnknown | src/Services/CludoProfileService.php:42-51 | there is no undeclared argument exactly when every passed name is declared; one that is reported was passed and is undeclared |
| Registry.GetProfileAsWritten | src/Services/CludoProfileService.php:39-96 | as written, a known id raises an Error exactly when its case passes an undeclared named argument, and otherwise gives the corrected lookup |
| Registry.CollectAsWrittenRaisesIff | src/Services/CludoProfileService.php:25-31 | the listing as written raises exactly when one of its lookups raises, and otherwise yields the corrected listing |
| Registry.MainLookupRaisesAsWritten | src/Services/CludoProfileService.php:42-51 | as written, the main lookup and hence the whole listing raise "Unknown named parameter $showFilters"; corrected, main is found and five profiles are listed |
| Registry.OtherLookupsUnaffected | src/Services/CludoProfileService.php:53-95 | every lookup other than main agrees with the corrected one |
| Redirects.Scan | src/EventSubscriber/SearchPageRedirects.php:41-67 | a denial comes only from a disabled profile whose Cludo route is requested and whose view URL does not resolve; a redirect goes to the carried target or to the view URL of such a disabled profile or the Cludo URL of an enabled profile whose view route is requested |
| Redirects.DetectRedirectType | src/EventSubscriber/SearchPageRedirects.php:35-67 | over the whole list: a denial comes only from a disabled profile with an unresolvable view URL; every redirect target is such a profile's view URL or an enabled view-matching profile's Cludo URL |
| Redirects.StrictMatchIsConsidered | src/EventSubscriber/SearchPageRedirects.php:42-60 | a profile whose route the request names strictly is never skipped by the loose pre-filter |
| Redirects.ScanStep | src/EventSubscriber/SearchPageRedirects.php:41-63 | one iteration: a disabled profile's own route ends the loop; otherwise the loop moves on, taking the Cludo URL as target on an enabled view match |
| Redirects.ScanStops | src/EventSubscriber/SearchPageRedirects.php:48-57 | the first disabled profile whose Cludo route is requested decides, whatever target was recorded before |
| Redirects.ScanNoMatch | src/EventSubscriber/SearchPageRedirects.php:41-67 | without a stop and without an enabled view match, the recorded target decides |
| Redirects.ScanLastView | src/EventSubscriber/SearchPageRedirects.php:57-67 | without a stop, the last enabled profile whose view route is requested decides |
| Redirects.ScanMeetsSpec | src/EventSubscriber/SearchPageRedirects.php:35-67 | the loop agrees with the declarative account in all three situations |
| Redirects.SituationsExhaustive | src/EventSubscriber/SearchPageRedirects.php:41-63 | some profile stops the loop, or none does; if none does, some last enabled view match exists or there is none |
| Redirects.NoMatchNoRedirect | src/EventSubscriber/SearchPageRedirects.php:41-44 | a route that names no profile's Cludo route or view route gets no redirect |
| Redirects.DisabledPrimaryDecides | src/EventSubscriber/SearchPageRedirects.php:48-57 | a disabled profile's Cludo route redirects to its view URL, or is denied when that does not resolve, and profiles after it are never consulted |
| Redirects.EnabledViewDecides | src/EventSubscriber/SearchPageRedirects.php:60-67 | an enabled profile's view route redirects to its Cludo URL, or gets no redirect when that does not resolve |
| Redirects.InactiveMatchesNoRedirect | src/EventSubscriber/SearchPageRedirects.php:48-62 | an enabled profile's Cludo route and a disabled profile's view route lead to no redirect |
| Redirects.InactiveViewsNoRedirect | src/EventSubscriber/SearchPageRedirects.php:41-67 | with neither a disabled primary match nor an enabled view match there is no redirect |
| Redirects.LaterViewOverwrites | src/EventSubscriber/SearchPageRedirects.php:57-62 | when two enabled profiles share the requested view route, the later one's Cludo URL wins |
| Redirects.NullRouteMatchesMissingView | src/EventSubscriber/SearchPageRedirects.php:37-62 | a request without a route name is redirected to the Cludo page of an enabled profile that has no view route |
| Redirects.MainDisabledScenario | src/EventSubscriber/SearchPageRedirects.php:38-57 | with main disabled, the main search page redirects to the editorial listing, or is denied when that listing does not resolve |
| Redirects.MainEnabledScenario | src/EventSubscriber/SearchPageRedirects.php:38-67 | with main enabled, the editorial listing redirects to the main search page when that resolves, and gets no redirect otherwise |
| Redirects.NullRouteScenario | src/EventSubscriber/SearchPageRedirects.php:37-67 | a request without a route name goes to English help when that is enabled, else to help when that is enabled, else nowhere |
| CludoApi.NewClient | src/Services/CludoApiService.php:46-66 | available exactly when customer id and API key are both truthy, then authorised by "customer:key"; the config is kept and the profile is the lookup of main; nothing has been sent |
| CludoApi.IsAvailable | src/Services/CludoApiService.php:59-73 | for credentials derived from the config, the service is available exactly when customer id and API key are both truthy |
| CludoApi.NewClientValid | src/Services/CludoApiService.php:59-73 | a new service's credentials agree with its config and it has issued no request |
| CludoApi.SetProfile | src/Services/CludoApiService.php:98-109 | a given profile is selected as it is; a known id selects the lookup of that id against the service's config; nothing else changes; an unknown id throws InvalidArgumentException and leaves the service unchanged |
| CludoApi.CallApi | src/Services/CludoApiService.php:119-146 | unavailable: RuntimeException and no request; available: exactly one authorised JSON POST, and what the client returns or throws is passed on unchanged |
| CludoApi.CallSearch | src/Services/CludoApiService.php:157-165 | the caller's body is posted to the search endpoint of the customer and the selected profile's engine, the service changes only by that one logged request, and the decoded body is returned |
| CludoApi.TotalDocument | src/Services/CludoApiService.php:175 | a non-null total exists only when the decoded body has a TotalDocument entry, and is then that entry |
| CludoApi.GetTotalResults | src/Services/CludoApiService.php:173-176 | the search's TotalDocument, null when absent, and the search's exception when it throws |
| CludoApi.PushEntityData | src/Services/CludoApiService.php:195-248 | returns false without a request when pushing is off or the selected crawler is unset; otherwise one POST to the crawler endpoint, the service changing only by that logged request, true exactly on status 200 |
| CludoApi.AddEntityData | src/Services/CludoApiService.php:181-183 | a skipped push reports false; an unavailable service throws RuntimeException without a request; otherwise exactly one request, to the crawler's pushurls endpoint with the entity URL as its only element, reporting true exactly on status 200 and passing the client's exception on |
| CludoApi.RemoveEntityData | src/Services/CludoApiService.php:188-190 | a skipped push reports false; an unavailable service throws RuntimeException without a request; otherwise exactly one request, to the crawler's delete endpoint with a single map from the entity URL to "PageContent", reporting true exactly on status 200 and passing the client's exception on |
| CludoApi.PushIssuesRequestIff | src/Services/CludoApiService.php:196-247 | a push issues a request exactly when it is neither skipped nor refused, and reports true exactly for a 200 response |
| CludoApi.AddAndRemoveTargetSameCrawler | src/Services/CludoApiService.php:181-190 | indexing and un-indexing go to the same customer and crawler, differing only in endpoint (pushurls, delete) and payload |
| CludoApi.UnavailableIssuesNothing | src/Services/CludoApiService.php:119-123 | without credentials no search or push reaches the HTTP client; a search and an unskipped push throw |
| CludoApi.FailedSetProfileKeepsEngine | src/Services/CludoApiService.php:98-108 | after a rejected profile id, searches still go to the previously selected engine |
| CludoApi.SearchExample | src/Services/CludoApiService.php:157-165 | customer 123 searching with the main profile posts to .../v3/123/14490/search authorised as "123:<key>" |
| Render.Present | src/Controller/CludoSearchPage.php:92-103 | the filtered template exactly when filters are shown; help pages always bind the help input, others the sub-search or default inputs by the same flag |
| Render.BreadcrumbNode | src/Controller/CludoSearchPage.php:62-67 | a breadcrumb node exactly when the query argument is truthy and names a node that loads |
| Render.NodeTrail | src/Controller/CludoSearchPage.php:69-73 | the trail is never empty: the helper's links, or the node's own link when the helper gives none |
| SearchPage.GetTitle | src/Controller/CludoSearchPage.php:30-34 | the empty string when the profile is unknown or has no title, the stored title otherwise |
| SearchPage.Breadcrumb | src/Controller/CludoSearchPage.php:60-87 | a breadcrumb exactly when the node loads; it ends with the node's trail and starts with a link to the current page exactly when the current URL validates; without that link it is the node's trail alone |
| SearchPage.Page | src/Controller/CludoSearchPage.php:53-133 | access denied exactly for an unknown or disabled profile; otherwise the chosen template and selectors, the profile's other client settings unchanged, title only when shown, label only for a truthy placeholder, cache tag kdb_cludo and the breadcrumb context |
| SearchBase.Fixtures | src/Controller/CludoSearchMain.php:12-24 | five controllers in registry order, each with a configured profile, and only main hides filters |
| SearchBase.GetTitle | src/Controller/CludoSearchBase.php:31-35 | the stored title, or null when none is stored |
| SearchBase.Page | src/Controller/CludoSearchBase.php:43-112 | access denied exactly when the stored enabled flag is falsy; the simple template exactly when filters are hidden, with the default selectors outside help; the one library; cache tags kdb_cludo plus node:<nid> exactly when the node loads, with its breadcrumb; no cache contexts |
| SearchBase.FixturesMatchRegistry | src/Controller/CludoSearchEvent.php:12-22 | the controllers carry the registry's profiles and filter flags, except that the event controller's view route is view.events.all |
| SearchBase.FixtureMatches | src/Controller/CludoSearchEvent.php:12-22 | the i-th controller against the lookup of the i-th registry id |
| SearchBase.ControllersAgree | src/Controller/CludoSearchBase.php:43-112 | for the same profile, up to its view route, the older and newer controllers agree on access, template, client settings and label, and on the title except empty against null |
| SearchBase.FixturesAgree | src/Controller/CludoSearchEvent.php:12-22 | each of the five controllers, the event one with its own view route included, agrees with the newer controller serving its registry id on access, template, client settings and label |
| ConfigOverrides.OverrideTargetBundles | src/Config/ConfigOverrides.php:47-49 | the allowed bundles are exactly the one paragraph type, mapped to itself |
| ConfigOverrides.OverrideDragDrop | src/Config/ConfigOverrides.php:51-56 | the drag-and-drop list holds exactly the paragraph type, with weight 0 and enabled |
| ConfigOverrides.EnableParagraph | src/Config/ConfigOverrides.php:40-61 | the keys are exactly the paragraph-field names of the listed content types that the factory asked about, each with the paragraph override |
| ConfigOverrides.OverridesOnlyForNames | src/Config/ConfigOverrides.php:41-60 | every override key is a name the factory asked about, and there are none when no candidate field is asked about |
| ConfigOverrides.LoadOverrides | src/Config/ConfigOverrides.php:23-25 | overrides exactly for the article and page paragraph fields among the requested names, each allowing the module's paragraph |

## Left out

- **HTTP and JSON.** The transport, JSON encoding and decoding, and the logger calls are not modelled. The HTTP client is a pure function parameter, so it answers the same request the same way. The logged messages are not represented.
- **base64.** The encoding of the credentials is not spelled out. `Auth = Basic(credentials)` stands for the header "Basic " followed by the base64 encoding of `credentials`.
- **Host glue.** `getFieldDefinitions` and the install-time field definition it produces are not modelled. Neither are the settings form, the client-side script, the service and subscriber registration (`getSubscribedEvents`), or `getCacheableMetadata`.
- **`createConfigObject`.** It always returns null and is not modelled. `getCacheSuffix` is the constant `ConfigOverrides.CacheSuffix`.
- **Numeric strings.** Loose `==` between two numeric strings (for example "1e1" == "10") is not modelled. Route names and config names are compared as text.
- **Value types.** Floats and objects among config values are not modelled.
- **Return-type coercion.** The model does not coerce return types declared `string`, `?string` or `?int`. `SearchPage.GetTitle`, `SearchBase.GetTitle` and `CludoApi.GetTotalResults` return the stored value as it is, where PHP would convert a scalar or raise a TypeError.
- Profiles.ConfigSettings: requires the profile's config to be assigned. Reading an unassigned typed property is an engine Error in PHP, and every profile in the registry and every controller has a non-empty label.
- Profiles.ConfigSettings: a stored `profiles.<id>` value that is not a string-keyed map (including a list, which PHP also counts as an array) is read as an empty map, where PHP would return the list or raise a TypeError on the `array` return type.
- Registry.GetProfile: the lookup of main is the corrected one (see Findings). As written, every caller that reaches it raises the Error instead: `CludoApi.NewClient` (src/Services/CludoApiService.php:54), `CludoApi.SetProfile` with the id main, `Redirects.DetectForRegistry` on every request (through `getProfiles`, src/EventSubscriber/SearchPageRedirects.php:38), and `SearchPage.Page`, `SearchPage.GetTitle` and `SearchPage.Breadcrumb` for the main page. The model states what these do with the intended main profile.
- SearchPage.Page: `showFilters` is read as a profile field that is true for article, event, help and help_en. That value is assumed (see above); as written, the newer controller reads an undeclared property, gets null and always takes the simple template.
- **The profile id request attribute.** `_cludoProfileId` is taken to be a string. A missing attribute would be a TypeError at `getProfile`.
- **Host failures.** `toUrl()`, `toString()` and node loading are assumed not to throw. Only route resolution failures are represented, as `None`.
- **The per-profile settings readers.** `Enabled`, `ShowTitle`, `Title` and `InputPlaceholder` read the editor settings, because the profile class does not define them (see above).

## Findings

| source | as written | input that shows it | evidently intended | confidence | as-written member | corrected member |
|---|---|---|---|---|---|---|
| src/Services/CludoProfileService.php:42-51 | the main case passes the named argument `showFilters`, which the profile constructor (src/CludoProfile.php:27-36) does not declare, so PHP raises the Error "Unknown named parameter $showFilters" | `getProfile('main')`, and therefore `getProfiles()`, whose first id is main; so also constructing the API service, `setProfile('main')`, every request through the redirect subscriber, and the main search page | build the main profile, with filters hidden | high; not executed | Registry.GetProfileAsWritten, Registry.MainLookupRaisesAsWritten | Registry.GetProfile |

=== FILE: cludo_api.dfy ===
/**
 * The Cludo API client: availability from credentials, the selected
 * profile, the search call and URL pushing. The HTTP transport is a
 * parameter, and every request handed to it is recorded in the client's
 * `requests` log so that "no request is issued" can be stated.
 */
module CludoApi {
  import opened Wrappers
  import opened Php
  import opened Profiles
  import opened Registry

  const ApiBase := "https://api.cludo.com/api/v3/"
  const NotAvailableMessage := "Cludo API not available"
  const InvalidProfileMessage := "Supplied cludoProfile is not valid."
  const UninitialisedProfileMessage := "Typed property $cludoProfile must not be accessed before initialization"

  /** The Basic authorization: the header is "Basic " followed by the base64 encoding of `credentials`. */
  datatype Auth = Basic(credentials: string)

  /** One request handed to the HTTP client. */
  datatype Request = Request(
    httpMethod: string,
    url: string,
    contentType: string,
    authorization: Auth,
    json: Value)

  /** A response: its status and its decoded JSON body. */
  datatype Response = Response(status: int, body: Value)

  /** The HTTP client: a response, or the exception it throws. */
  type Transport = Request -> Result<Response>

  /**
   * The service state. `auth` is assigned exactly when the API is available
   * (`isAvailable`); `profile` is the selected profile, None while the typed
   * property is unassigned.
   */
  datatype Client = Client(
    config: Config,
    profile: Option<Profile>,
    auth: Option<Auth>,
    requests: seq<Request>)

  /** The state after a call, with what the call returned or threw. */
  datatype Step<+T> = Step(client: Client, result: Result<T>)

  /** The authorization the constructor derives from the stored credentials, if both are set. */
  function AuthFromConfig(config: Config): Option<Auth> {
    var customerId := Lookup(config, "customer_id");
    var apiKey := Lookup(config, "api_key");
    if Truthy(customerId) && Truthy(apiKey) then
      Some(Basic(Interpolate(customerId) + ":" + Interpolate(apiKey)))
    else
      None
  }

  /** The constructor. */
  function NewClient(config: Config): (c: Client)
    ensures IsAvailable(c) <==> Truthy(Lookup(config, "customer_id")) && Truthy(Lookup(config, "api_key"))
    ensures IsAvailable(c) ==>
      c.auth == Some(Basic(Interpolate(Lookup(config, "customer_id")) + ":" + Interpolate(Lookup(config, "api_key"))))
    ensures c.config == config && c.profile == GetProfile("main", config)
    ensures c.profile.Some? && c.profile.value.id == "main"
    ensures c.requests == []
  {
    Client(config, GetProfile("main", config), AuthFromConfig(config), [])
  }

  /** `isAvailable`: for a client the constructor built, exactly when both credentials are set. */
  predicate IsAvailable(c: Client)
    ensures c.auth == AuthFromConfig(c.config) ==>
      (IsAvailable(c) <==> Truthy(Lookup(c.config, "customer_id")) && Truthy(Lookup(c.config, "api_key")))
  {
    c.auth.Some?
  }

  /**
   * What holds of every client the constructor builds and every call keeps:
   * the credentials come from the config, and every request issued so far
   * was a POST carrying them.
   */
  ghost predicate Valid(c: Client) {
    && c.auth == AuthFromConfig(c.config)
    && (|c.requests| > 0 ==> IsAvailable(c))
    && forall r <- c.requests :: r.httpMethod == "POST" && Some(r.authorization) == c.auth
  }

  lemma NewClientValid(config: Config)
    ensures Valid(NewClient(config))
  {
  }

  /** The argument of `setProfile`: a profile, or an id to look up. */
  datatype ProfileArg = ByProfile(p: Profile) | ById(id: string)

  /** `setProfile`. */
  function SetProfile(c: Client, arg: ProfileArg): (s: Step<()>)
    ensures s.result.Ok? <==> arg.ByProfile? || arg.id in ProfileIds
    ensures s.result.Ok? ==> s.client == c.(profile := s.client.profile) && s.client.profile.Some?
    ensures s.result.Ok? && arg.ById? ==> s.client.profile == GetProfile(arg.id, c.config) && s.client.profile.value.id == arg.id
    ensures s.result.Ok? && arg.ByProfile? ==> s.client.profile == Some(arg.p)
    ensures s.result.Thrown? ==> s.client == c && s.result.error == InvalidArgument(InvalidProfileMessage)
  {
    var resolved := match arg
      case ByProfile(p) => Some(p)
      case ById(id) => GetProfile(id, c.config);
    match resolved
    case Some(p) => Step(c.(profile := Some(p)), Ok(()))
    case None => Step(c, Thrown(InvalidArgument(InvalidProfileMessage)))
  }

  /** `callApi`: refuse before any request when unavailable; otherwise issue exactly one and pass on what the client throws. */
  function CallApi(c: Client, url: string, body: Value, transport: Transport): (s: Step<Response>)
    ensures !IsAvailable(c) ==> s == Step(c, Thrown(Runtime(NotAvailableMessage)))
    ensures IsAvailable(c) ==>
      var req := Request("POST", url, "application/json", c.auth.value, body);
      s.client == c.(requests := c.requests + [req]) && s.result == transport(req)
    ensures s.client.config == c.config && s.client.profile == c.profile && s.client.auth == c.auth
    ensures Valid(c) ==> Valid(s.client)
  {
    match c.auth
    case None => Step(c, Thrown(Runtime(NotAvailableMessage)))
    case Some(auth) =>
      var req := Request("POST", url, "application/json", auth, body);
      Step(c.(requests := c.requests + [req]), transport(req))
  }

  /** The search endpoint of an engine. */
  function SearchUrl(customerId: Value, engineId: int): string {
    ApiBase + Interpolate(customerId) + "/" + Decimal(engineId) + "/search"
  }

  /** `callSearch`: post the caller's body to the selected profile's engine and return the decoded body. */
  function CallSearch(c: Client, body: Value, transport: Transport): (s: Step<Value>)
    ensures c.profile.None? ==> s.client == c && s.result.Thrown?
    ensures c.profile.Some? && !IsAvailable(c) ==>
      s.client == c && s.result == Thrown(Runtime(NotAvailableMessage))
    ensures c.profile.Some? && IsAvailable(c) ==>
      var req := Request("POST", SearchUrl(Lookup(c.config, "customer_id"), c.profile.value.cludoEngineId),
        "application/json", c.auth.value, body);
      && s.client == c.(requests := c.requests + [req])
      && (transport(req).Ok? ==> s.result == Ok(transport(req).value.body))
      && (transport(req).Thrown? ==> s.result == Thrown(transport(req).error))
    ensures Valid(c) ==> Valid(s.client)
  {
    match c.profile
    case None => Step(c, Thrown(EngineError(UninitialisedProfileMessage)))
    case Some(p) =>
      var url := SearchUrl(Lookup(c.config, "customer_id"), p.cludoEngineId);
      var call := CallApi(c, url, body, transport);
      match call.result
      case Ok(response) => Step(call.client, Ok(response.body))
      case Thrown(e) => Step(call.client, Thrown(e))
  }

  /** `$results['TotalDocument'] ?? NULL`. */
  function TotalDocument(results: Value): (v: Value)
    ensures v != Null ==> results.Dict? && "TotalDocument" in results.entries && v == results.entries["TotalDocument"]
    ensures results.Dict? && "TotalDocument" in results.entries ==> v == results.entries["TotalDocument"]
  {
    if results.Dict? then Lookup(results.entries, "TotalDocument") else Null
  }

  /** `getTotalResults`: the search's TotalDocument, or null when the response has none. */
  function GetTotalResults(c: Client, body: Value, transport: Transport): (s: Step<Value>)
    ensures s.client == CallSearch(c, body, transport).client
    ensures CallSearch(c, body, transport).result.Thrown? ==> s.result == CallSearch(c, body, transport).result
    ensures CallSearch(c, body, transport).result.Ok? ==>
      var results := CallSearch(c, body, transport).result.value;
      && s.result.Ok?
      && (s.result.value != Null ==> results.Dict? && "TotalDocument" in results.entries)
      && (results.Dict? && "TotalDocument" in results.entries ==> s.result.value == results.entries["TotalDocument"])
    ensures Valid(c) ==> Valid(s.client)
  {
    var search := CallSearch(c, body, transport);
    match search.result
    case Ok(results) => Step(search.client, Ok(TotalDocument(results)))
    case Thrown(e) => Step(search.client, Thrown(e))
  }

  /** A content entity, as far as pushing it is concerned. */
  datatype Entity = Entity(
    hasEnglishField: bool,
      /** The string value of its `kdb_cludo_english` field. */
    englishFlag: string,
      /** Its absolute canonical URL. */
    absoluteUrl: string)

  /** The entity is marked as English content. */
  predicate IsEnglish(e: Entity) {
    e.hasEnglishField && Truthy(Str(e.englishFlag))
  }

  /** The crawler the content goes to: the English crawler for English content, the default one otherwise. */
  function CrawlerId(config: Config, english: bool): Value {
    if english then Lookup(config, "crawler_id_english") else Lookup(config, "crawler_id")
  }

  /** The content endpoint name: `delete` to un-index, `pushurls` to index. */
  function Endpoint(delete: bool): string {
    if delete then "delete" else "pushurls"
  }

  /** The request body: the URL mapped to "PageContent" to un-index, the bare URL to index. */
  function Payload(delete: bool, url: string): Value {
    if delete then List([Dict(map[url := Str("PageContent")])]) else List([Str(url)])
  }

  function ContentUrl(customerId: Value, crawlerId: Value, endpoint: string): string {
    ApiBase + Interpolate(customerId) + "/content/" + Interpolate(crawlerId) + "/" + endpoint
  }

  /** Pushing is switched off, or the selected crawler id is not set: return false without a request. */
  predicate PushSkipped(config: Config, e: Entity) {
    !Truthy(Lookup(config, "enable_url_pushing")) || !Truthy(CrawlerId(config, IsEnglish(e)))
  }

  /** The request a push that is not skipped hands to the client. */
  function PushRequest(c: Client, e: Entity, delete: bool): Request
    requires IsAvailable(c)
  {
    var crawlerId := CrawlerId(c.config, IsEnglish(e));
    var url := ContentUrl(Lookup(c.config, "customer_id"), crawlerId, Endpoint(delete));
    Request("POST", url, "application/json", c.auth.value, Payload(delete, e.absoluteUrl))
  }

  /** `pushEntityData`. */
  function PushEntityData(c: Client, e: Entity, delete: bool, transport: Transport): (s: Step<bool>)
    ensures PushSkipped(c.config, e) ==> s == Step(c, Ok(false))
    ensures !PushSkipped(c.config, e) && !IsAvailable(c) ==> s == Step(c, Thrown(Runtime(NotAvailableMessage)))
    ensures !PushSkipped(c.config, e) && IsAvailable(c) ==>
      var req := PushRequest(c, e, delete);
      && s.client == c.(requests := c.requests + [req])
      && (transport(req).Ok? ==> s.result == Ok(transport(req).value.status == 200))
      && (transport(req).Thrown? ==> s.result == Thrown(transport(req).error))
    ensures s.client.requests == c.requests || |s.client.requests| == |c.requests| + 1
    ensures Valid(c) ==> Valid(s.client)
  {
    if !Truthy(Lookup(c.config, "enable_url_pushing")) then Step(c, Ok(false))
    else
      var crawlerId := CrawlerId(c.config, IsEnglish(e));
      if !Truthy(crawlerId) then Step(c, Ok(false))
      else
        var endpoint := Endpoint(delete);
        var url := ContentUrl(Lookup(c.config, "customer_id"), crawlerId, endpoint);
        var call := CallApi(c, url, Payload(delete, e.absoluteUrl), transport);
        match call.result
        case Ok(response) => Step(call.client, Ok(response.status == 200))
        case Thrown(err) => Step(call.client, Thrown(err))
  }

  /** `addEntityData`: index the entity by pushing its bare URL to the crawler's `pushurls` endpoint. */
  function AddEntityData(c: Client, e: Entity, transport: Transport): (s: Step<bool>)
    ensures PushSkipped(c.config, e) ==> s == Step(c, Ok(false))
    ensures !PushSkipped(c.config, e) && !IsAvailable(c) ==> s == Step(c, Thrown(Runtime(NotAvailableMessage)))
    ensures !PushSkipped(c.config, e) && IsAvailable(c) ==>
      var req := PushRequest(c, e, false);
      && s.client == c.(requests := c.requests + [req])
      && (transport(req).Ok? ==> s.result == Ok(transport(req).value.status == 200))
      && (transport(req).Thrown? ==> s.result == Thrown(transport(req).error))
    ensures s.client.requests != c.requests ==>
      && |s.client.requests| == |c.requests| + 1
      && var req := s.client.requests[|c.requests|];
      && s.client.requests == c.requests + [req]
      && req.url == ContentUrl(Lookup(c.config, "customer_id"), CrawlerId(c.config, IsEnglish(e)), "pushurls")
      && req.json == List([Str(e.absoluteUrl)])
  {
    PushEntityData(c, e, false, transport)
  }

  /** `removeEntityData`: un-index the entity by sending its URL, marked as page content, to the crawler's `delete` endpoint. */
  function RemoveEntityData(c: Client, e: Entity, transport: Transport): (s: Step<bool>)
    ensures PushSkipped(c.config, e) ==> s == Step(c, Ok(false))
    ensures !PushSkipped(c.config, e) && !IsAvailable(c) ==> s == Step(c, Thrown(Runtime(NotAvailableMessage)))
    ensures !PushSkipped(c.config, e) && IsAvailable(c) ==>
      var req := PushRequest(c, e, true);
      && s.client == c.(requests := c.requests + [req])
      && (transport(req).Ok? ==> s.result == Ok(transport(req).value.status == 200))
      && (transport(req).Thrown? ==> s.result == Thrown(transport(req).error))
    ensures s.client.requests != c.requests ==>
      && |s.client.requests| == |c.requests| + 1
      && var req := s.client.requests[|c.requests|];
      && s.client.requests == c.requests + [req]
      && req.url == ContentUrl(Lookup(c.config, "customer_id"), CrawlerId(c.config, IsEnglish(e)), "delete")
      && req.json == List([Dict(map[e.absoluteUrl := Str("PageContent")])])
  {
    PushEntityData(c, e, true, transport)
  }

  // ---------------------------------------------------------------------------
  // Properties across the operations.

  /**
   * A push issues a request exactly when it is neither skipped nor refused
   * for want of credentials; it reports true only for a 200 response to
   * that request.
   */
  lemma PushIssuesRequestIff(c: Client, e: Entity, delete: bool, transport: Transport)
    ensures var s := PushEntityData(c, e, delete, transport);
      (s.client.requests != c.requests <==> !PushSkipped(c.config, e) && IsAvailable(c))
    ensures var s := PushEntityData(c, e, delete, transport);
      s.result == Ok(true) <==>
        && !PushSkipped(c.config, e) && IsAvailable(c)
        && transport(PushRequest(c, e, delete)).Ok?
        && transport(PushRequest(c, e, delete)).value.status == 200
  {
    var s := PushEntityData(c, e, delete, transport);
    if !PushSkipped(c.config, e) && IsAvailable(c) {
      assert |s.client.requests| == |c.requests| + 1;
    }
  }

  /** Add and remove differ only in endpoint and payload: both go to the same crawler of the same customer. */
  lemma AddAndRemoveTargetSameCrawler(c: Client, e: Entity, transport: Transport)
    requires IsAvailable(c) && !PushSkipped(c.config, e)
    ensures var add := PushRequest(c, e, false);
      var del := PushRequest(c, e, true);
      && add.url == ContentUrl(Lookup(c.config, "customer_id"), CrawlerId(c.config, IsEnglish(e)), "pushurls")
      && del.url == ContentUrl(Lookup(c.config, "customer_id"), CrawlerId(c.config, IsEnglish(e)), "delete")
      && add.json == List([Str(e.absoluteUrl)])
      && del.json == List([Dict(map[e.absoluteUrl := Str("PageContent")])])
    ensures AddEntityData(c, e, transport).client.requests == c.requests + [PushRequest(c, e, false)]
    ensures RemoveEntityData(c, e, transport).client.requests == c.requests + [PushRequest(c, e, true)]
  {
  }

  /** Without credentials no operation ever reaches the transport. */
  lemma UnavailableIssuesNothing(c: Client, body: Value, e: Entity, delete: bool, transport: Transport)
    requires !IsAvailable(c)
    ensures CallSearch(c, body, transport).client.requests == c.requests
    ensures GetTotalResults(c, body, transport).client.requests == c.requests
    ensures PushEntityData(c, e, delete, transport).client.requests == c.requests
    ensures CallSearch(c, body, transport).result.Thrown?
    ensures !PushSkipped(c.config, e) ==> PushEntityData(c, e, delete, transport).result == Thrown(Runtime(NotAvailableMessage))
  {
  }

  /** A failed `setProfile` leaves the later search going to the previously selected engine. */
  lemma FailedSetProfileKeepsEngine(c: Client, id: string, body: Value, transport: Transport)
    requires id !in ProfileIds
    ensures var s := SetProfile(c, ById(id));
      s.result.Thrown? && CallSearch(s.client, body, transport) == CallSearch(c, body, transport)
  {
  }

  /** The decimal forms of customer id 123 and the main engine id 14490. */
  lemma ExampleDecimals()
    ensures Decimal(123) == "123" && Decimal(14490) == "14490"
  {
    assert NatDecimal(12) == NatDecimal(1) + "2";
    assert NatDecimal(123) == NatDecimal(12) + "3";
    assert NatDecimal(14) == NatDecimal(1) + "4";
    assert NatDecimal(144) == NatDecimal(14) + "4";
    assert NatDecimal(1449) == NatDecimal(144) + "9";
    assert NatDecimal(14490) == NatDecimal(1449) + "0";
  }

  /** An example search: customer 123 on the main engine 14490. */
  lemma SearchExample(apiKey: string, transport: Transport)
    requires Truthy(Str(apiKey))
    ensures var c := NewClient(map["customer_id" := Int(123), "api_key" := Str(apiKey)]);
      var body := Dict(map["query" := Str("books")]);
      CallSearch(c, body, transport).client.requests ==
        [Request("POST", "https://api.cludo.com/api/v3/123/14490/search", "application/json",
          Basic("123:" + apiKey), body)]
  {
    var c := NewClient(map["customer_id" := Int(123), "api_key" := Str(apiKey)]);
    ExampleClient(apiKey);
    ExampleSearchUrl();
    assert SearchUrl(Lookup(c.config, "customer_id"), c.profile.value.cludoEngineId)
      == "https://api.cludo.com/api/v3/123/14490/search";
  }

  /** The example's client: available, authorised as customer 123, on the main engine 14490. */
  lemma ExampleClient(apiKey: string)
    requires Truthy(Str(apiKey))
    ensures var c := NewClient(map["customer_id" := Int(123), "api_key" := Str(apiKey)]);
      && IsAvailable(c)
      && c.auth == Some(Basic("123:" + apiKey))
      && Lookup(c.config, "customer_id") == Int(123)
      && c.profile.Some? && c.profile.value.cludoEngineId == 14490
  {
    var config := map["customer_id" := Int(123), "api_key" := Str(apiKey)];
    ExampleDecimals();
    assert Lookup(config, "customer_id") == Int(123);
    assert Interpolate(Int(123)) == "123";
    assert "123" + ":" + apiKey == "123:" + apiKey;
  }

  /** The example's search endpoint. */
  lemma ExampleSearchUrl()
    ensures SearchUrl(Int(123), 14490) == "https://api.cludo.com/api/v3/123/14490/search"
  {
    ExampleDecimals();
  }
}

=== FILE: config_overrides.dfy ===
/** Dynamic config overrides that let the module's paragraph be added to chosen content types. */
module ConfigOverrides {
  import opened Php

  /** The paragraph type the module provides. */
  const ParagraphId := "kdb_cludo"

  /** The content types that may hold it. */
  const ContentTypes: seq<string> := ["article", "page"]

  /** `getCacheSuffix`. */
  const CacheSuffix := "ConfigOverrides"

  /** The config name of a content type's paragraphs field. */
  function FieldKey(contentType: string): string {
    "field.field.node." + contentType + ".field_paragraphs"
  }

  /** The value at a path of nested keys, or null where the path leaves the value. */
  function At(v: Value, path: seq<string>): Value {
    if path == [] then v
    else if v.Dict? && path[0] in v.entries then At(v.entries[path[0]], path[1..])
    else Null
  }

  /** The override written for each enabled field. */
  function ParagraphOverride(paragraphId: string): Value {
    Dict(map["settings" := Dict(map["handler_settings" := Dict(map[
      "target_bundles" := Dict(map[paragraphId := Str(paragraphId)]),
      "target_bundles_drag_drop" := Dict(map[paragraphId := Dict(map["weight" := Int(0), "enabled" := Bool(true)])])
    ])])])
  }

  /** The override allows exactly the one paragraph type. */
  lemma OverrideTargetBundles(paragraphId: string)
    ensures var bundles := At(ParagraphOverride(paragraphId), ["settings", "handler_settings", "target_bundles"]);
      bundles.Dict? && bundles.entries.Keys == {paragraphId} && bundles.entries[paragraphId] == Str(paragraphId)
  {
    var o := ParagraphOverride(paragraphId);
    var settings := o.entries["settings"];
    var handler := settings.entries["handler_settings"];
    Descend(o, "settings", ["handler_settings", "target_bundles"]);
    Descend(settings, "handler_settings", ["target_bundles"]);
    Descend(handler, "target_bundles", []);
  }

  /** The override places the paragraph type first and enabled in the drag-and-drop list, and lists nothing else. */
  lemma OverrideDragDrop(paragraphId: string)
    ensures var dragDrop := At(ParagraphOverride(paragraphId), ["settings", "handler_settings", "target_bundles_drag_drop"]);
      && dragDrop.Dict? && dragDrop.entries.Keys == {paragraphId}
      && At(dragDrop, [paragraphId, "weight"]) == Int(0)
      && At(dragDrop, [paragraphId, "enabled"]) == Bool(true)
  {
    var o := ParagraphOverride(paragraphId);
    var settings := o.entries["settings"];
    var handler := settings.entries["handler_settings"];
    var dragDrop := handler.entries["target_bundles_drag_drop"];
    Descend(o, "settings", ["handler_settings", "target_bundles_drag_drop"]);
    Descend(settings, "handler_settings", ["target_bundles_drag_drop"]);
    Descend(handler, "target_bundles_drag_drop", []);
    Descend(dragDrop, paragraphId, ["weight"]);
    Descend(dragDrop.entries[paragraphId], "weight", []);
    Descend(dragDrop, paragraphId, ["enabled"]);
    Descend(dragDrop.entries[paragraphId], "enabled", []);
  }

  /** One step down a path. */
  lemma Descend(v: Value, key: string, rest: seq<string>)
    requires v.Dict? && key in v.entries
    ensures At(v, [key] + rest) == At(v.entries[key], rest)
  {
    assert ([key] + rest)[1..] == rest;
  }

  /** `enableParagraph`: one override per listed content type whose field is among `names`. */
  function EnableParagraph(names: seq<string>, paragraphId: string, contentTypes: seq<string>): (r: map<string, Value>)
    ensures r.Keys == set c | c in contentTypes && FieldKey(c) in names :: FieldKey(c)
    ensures forall k | k in r :: r[k] == ParagraphOverride(paragraphId)
  {
    if contentTypes == [] then map[]
    else
      var earlier := contentTypes[..|contentTypes| - 1];
      var last := contentTypes[|contentTypes| - 1];
      var overrides := EnableParagraph(names, paragraphId, earlier);
      assert forall c :: c in contentTypes <==> c in earlier || c == last by {
        assert contentTypes == earlier + [last];
      }
      var key := FieldKey(last);
      if key in names then overrides[key := ParagraphOverride(paragraphId)] else overrides
  }

  /** Every override concerns a config name the factory asked about. */
  lemma OverridesOnlyForNames(names: seq<string>, paragraphId: string, contentTypes: seq<string>)
    ensures forall k <- EnableParagraph(names, paragraphId, contentTypes) :: k in names
    ensures (forall c <- contentTypes :: FieldKey(c) !in names) ==> EnableParagraph(names, paragraphId, contentTypes) == map[]
  {
  }

  /** `loadOverrides`: the paragraph fields of articles and pages, where the factory asks about them. */
  function LoadOverrides(names: seq<string>): (r: map<string, Value>)
    ensures forall k :: k in r <==> k in names && (k == FieldKey("article") || k == FieldKey("page"))
    ensures forall k | k in r :: r[k] == ParagraphOverride(ParagraphId)
  {
    EnableParagraph(names, ParagraphId, ContentTypes)
  }
}

=== FILE: php.dfy ===
/** The slice of PHP's value semantics that the module's decisions depend on. */
module Php {
  import opened Wrappers

  /**
   * A PHP value as stored in config, decoded from JSON or read from a request.
   * Floats and objects are not represented.
   */
  datatype Value =
    | Null
    | Bool(b: bool)
    | Int(i: int)
    | Str(s: string)
    | List(items: seq<Value>)
    | Dict(entries: map<string, Value>)

  /** PHP truthiness: what `if ($v)` accepts and `empty($v)` rejects. */
  predicate Truthy(v: Value) {
    match v
    case Null => false
    case Bool(b) => b
    case Int(i) => i != 0
    case Str(s) => s != "" && s != "0"
    case List(items) => |items| > 0
    case Dict(entries) => |entries| > 0
  }

  /** The falsy values are exactly null, false, 0, "", "0" and the empty array. */
  lemma FalsyValues(v: Value)
    ensures !Truthy(v) <==>
      v == Null || v == Bool(false) || v == Int(0) || v == Str("") || v == Str("0")
      || v == List([]) || v == Dict(map[])
  {
    if v.List? && |v.items| == 0 {
      assert v.items == [];
    }
    if v.Dict? && |v.entries| == 0 {
      assert v.entries == map[];
    }
  }

  /** An immutable config object: dotted key to stored value. */
  type Config = map<string, Value>

  /** `$config->get($key)` and `$array[$key] ?? NULL`: the stored value, or null. */
  function Lookup(m: map<string, Value>, key: string): Value {
    if key in m then m[key] else Null
  }

  /** The nullable string `$s` as a PHP value. */
  function OptionalStr(s: Option<string>): Value {
    match s
    case Some(t) => Str(t)
    case None => Null
  }

  /**
   * PHP's loose `==` between two nullable strings, as used by `in_array`.
   * Null equals exactly the empty string. Numeric strings ("1e1" == "10") are
   * compared as text here.
   */
  predicate LooseEq(a: Option<string>, b: Option<string>) {
    match (a, b)
    case (None, None) => true
    case (None, Some(t)) => t == ""
    case (Some(s), None) => s == ""
    case (Some(s), Some(t)) => s == t
  }

  /**
   * `in_array($needle, $haystack)` with its default loose comparison: it
   * holds for every strict member, and beyond those exactly when null meets "".
   */
  predicate InArray(needle: Option<string>, haystack: seq<Option<string>>)
    ensures InArray(needle, haystack) <==>
      || needle in haystack
      || (needle == None && Some("") in haystack)
      || (needle == Some("") && None in haystack)
  {
    LooseMembership(needle, haystack);
    exists i | 0 <= i < |haystack| :: LooseEq(needle, haystack[i])
  }

  /** A loose match is a strict member, or null against "" either way round. */
  lemma LooseMembership(needle: Option<string>, haystack: seq<Option<string>>)
    ensures (exists i | 0 <= i < |haystack| :: LooseEq(needle, haystack[i])) <==>
      || needle in haystack
      || (needle == None && Some("") in haystack)
      || (needle == Some("") && None in haystack)
  {
    if i :| 0 <= i < |haystack| && LooseEq(needle, haystack[i]) {
      LooseEqCharacterised(needle, haystack[i]);
    }
    if needle in haystack {
      var i :| 0 <= i < |haystack| && haystack[i] == needle;
      LooseEqCharacterised(needle, haystack[i]);
    } else if needle == None && Some("") in haystack {
      var i :| 0 <= i < |haystack| && haystack[i] == Some("");
      assert LooseEq(needle, haystack[i]);
    } else if needle == Some("") && None in haystack {
      var i :| 0 <= i < |haystack| && haystack[i] == None;
      assert LooseEq(needle, haystack[i]);
    }
  }

  /** Strict `===` implies loose `==`; they differ only on null against "". */
  lemma LooseEqCharacterised(a: Option<string>, b: Option<string>)
    ensures a == b ==> LooseEq(a, b)
    ensures LooseEq(a, b) && a != b <==> (a == None && b == Some("")) || (a == Some("") && b == None)
  {
  }

  predicate IsDigit(c: char) {
    '0' <= c <= '9'
  }

  predicate AllDigits(s: string) {
    forall i | 0 <= i < |s| :: IsDigit(s[i])
  }

  function DigitChar(d: nat): (c: char)
    requires d < 10
    ensures IsDigit(c) && c as int - '0' as int == d
  {
    ('0' as int + d) as char
  }

  /** The number a string of decimal digits denotes. */
  function ParseDigits(s: string): nat
    requires AllDigits(s)
  {
    if s == [] then 0
    else 10 * ParseDigits(s[..|s| - 1]) + (s[|s| - 1] as int - '0' as int)
  }

  /**
   * PHP's decimal rendering of a non-negative integer: canonical digits (no
   * leading zero) that parse back to the number.
   */
  function NatDecimal(n: nat): (s: string)
    ensures |s| >= 1 && AllDigits(s)
    ensures s[0] == '0' ==> s == "0"
    ensures ParseDigits(s) == n
  {
    if n < 10 then [DigitChar(n)]
    else
      var prefix := NatDecimal(n / 10);
      var s := prefix + [DigitChar(n % 10)];
      assert s[..|s| - 1] == prefix;
      s
  }

  /** PHP's decimal rendering of an integer, with a leading '-' when negative. */
  function Decimal(i: int): (s: string)
    ensures i >= 0 ==> |s| >= 1 && AllDigits(s) && ParseDigits(s) == i && (s[0] == '0' ==> s == "0")
    ensures i < 0 ==> |s| >= 2 && s[0] == '-' && AllDigits(s[1..]) && ParseDigits(s[1..]) == -i && s[1] != '0'
  {
    if i < 0 then "-" + NatDecimal(-i) else NatDecimal(i)
  }

  /**
   * String interpolation and `.` concatenation of a value (`"$v"`): strings
   * as they are, null and false as "", true as "1", integers in decimal and
   * arrays as "Array".
   */
  function Interpolate(v: Value): (s: string)
    ensures v.Str? ==> s == v.s
    ensures v == Null || v == Bool(false) ==> s == ""
    ensures v == Bool(true) ==> s == "1"
    ensures v.Int? && v.i >= 0 ==> |s| >= 1 && AllDigits(s) && ParseDigits(s) == v.i && (s[0] == '0' ==> s == "0")
    ensures v.Int? && v.i < 0 ==>
      |s| >= 2 && s[0] == '-' && AllDigits(s[1..]) && ParseDigits(s[1..]) == -v.i && s[1] != '0'
    ensures v.List? || v.Dict? ==> s == "Array"
  {
    match v
    case Null => ""
    case Bool(b) => if b then "1" else ""
    case Int(i) => Decimal(i)
    case Str(s) => s
    case List(_) => "Array"
    case Dict(_) => "Array"
  }
}

=== FILE: profiles.dfy ===
/** A search profile: one Cludo search page and the listing view it can replace. */
module Profiles {
  import opened Wrappers
  import opened Php

  /** A resolved route, in its `toString()` form. */
  type Url = string

  /**
   * `Url::fromRoute`: None when the route name does not turn into a URL,
   * including when the host's router throws.
   */
  type Router = string -> Option<Url>

  const DefaultLanguage := "da"

  /** The search-input selectors the client script binds to by default. */
  const DefaultSelectors: seq<string> := ["#cludo-search-input", ".cludo-header-search"]

  /** Config key prefix under which the editor settings of each profile are stored. */
  const SettingsPrefix := "profiles."

  /**
   * A profile. `displayLabel` (the `label` property) and `config` stay unassigned (None) when the
   * translatable label is empty. `showFilters` is not a declared property of
   * the profile class; it is carried here as an opaque per-profile field.
   */
  datatype Profile = Profile(
    id: string,
    translatableLabel: string,
    cludoType: string,
    cludoRouteName: string,
    cludoEngineId: int,
    cludoLanguage: string,
    viewId: Option<string>,
    viewRouteName: Option<string>,
    showFilters: bool,
    displayLabel: Option<string>,
    config: Option<Config>)

  /** The constructor: the label is wrapped, and the settings snapshot taken, only for a non-empty label. */
  function NewProfile(
    id: string, translatableLabel: string, cludoType: string, cludoRouteName: string,
    cludoEngineId: int, cludoLanguage: string, viewId: Option<string>,
    viewRouteName: Option<string>, showFilters: bool, settings: Config): (p: Profile)
    ensures p.displayLabel.Some? <==> Truthy(Str(translatableLabel))
    ensures p.config.Some? <==> p.displayLabel.Some?
    ensures p.displayLabel.Some? ==> p.displayLabel.value == translatableLabel && p.config == Some(settings)
  {
    var hasLabel := Truthy(Str(translatableLabel));
    Profile(id, translatableLabel, cludoType, cludoRouteName, cludoEngineId, cludoLanguage,
      viewId, viewRouteName, showFilters,
      if hasLabel then Some(translatableLabel) else None,
      if hasLabel then Some(settings) else None)
  }

  /** The declared properties of the profile class. */
  const PropertyNames: set<string> := {
    "id", "translatableLabel", "cludoType", "cludoRouteName", "cludoEngineId",
    "cludoLanguage", "viewId", "viewRouteName", "label", "config"
  }

  /** `get($key)`: the named property, or null when it is unknown, unassigned or null. */
  function Get(p: Profile, key: string): (v: Value)
    ensures key !in PropertyNames ==> v == Null
    ensures key == "id" ==> v == Str(p.id)
    ensures key == "translatableLabel" ==> v == Str(p.translatableLabel)
    ensures key == "cludoType" ==> v == Str(p.cludoType)
    ensures key == "cludoRouteName" ==> v == Str(p.cludoRouteName)
    ensures key == "cludoEngineId" ==> v == Int(p.cludoEngineId)
    ensures key == "cludoLanguage" ==> v == Str(p.cludoLanguage)
    ensures key == "viewId" ==> v == OptionalStr(p.viewId)
    ensures key == "viewRouteName" ==> v == OptionalStr(p.viewRouteName)
    ensures key == "label" ==> v == OptionalStr(p.displayLabel)
    ensures key == "config" ==> (v == Null <==> p.config.None?)
    ensures key == "config" && p.config.Some? ==> v == Dict(p.config.value)
  {
    if key == "id" then Str(p.id)
    else if key == "translatableLabel" then Str(p.translatableLabel)
    else if key == "cludoType" then Str(p.cludoType)
    else if key == "cludoRouteName" then Str(p.cludoRouteName)
    else if key == "cludoEngineId" then Int(p.cludoEngineId)
    else if key == "cludoLanguage" then Str(p.cludoLanguage)
    else if key == "viewId" then OptionalStr(p.viewId)
    else if key == "viewRouteName" then OptionalStr(p.viewRouteName)
    else if key == "label" then OptionalStr(p.displayLabel)
    else if key == "config" then (if p.config.Some? then Dict(p.config.value) else Null)
    else Null
  }

  /**
   * Reading a new profile back: the constructor's arguments come out as
   * given, the label and config read as null exactly when the translatable
   * label is empty, and `showFilters`, not being a declared property, reads
   * as null.
   */
  lemma GetAfterNew(
    id: string, translatableLabel: string, cludoType: string, cludoRouteName: string,
    cludoEngineId: int, cludoLanguage: string, viewId: Option<string>,
    viewRouteName: Option<string>, showFilters: bool, settings: Config)
    ensures var p := NewProfile(id, translatableLabel, cludoType, cludoRouteName, cludoEngineId,
        cludoLanguage, viewId, viewRouteName, showFilters, settings);
      && Get(p, "id") == Str(id) && Get(p, "cludoRouteName") == Str(cludoRouteName)
      && Get(p, "translatableLabel") == Str(translatableLabel) && Get(p, "cludoType") == Str(cludoType)
      && Get(p, "cludoEngineId") == Int(cludoEngineId) && Get(p, "cludoLanguage") == Str(cludoLanguage)
      && Get(p, "viewId") == OptionalStr(viewId) && Get(p, "viewRouteName") == OptionalStr(viewRouteName)
      && (Get(p, "label") == Null <==> !Truthy(Str(translatableLabel)))
      && (Get(p, "config") == Null <==> !Truthy(Str(translatableLabel)))
      && (Truthy(Str(translatableLabel)) ==> Get(p, "config") == Dict(settings))
      && Get(p, "showFilters") == Null
  {
    var p := NewProfile(id, translatableLabel, cludoType, cludoRouteName, cludoEngineId,
      cludoLanguage, viewId, viewRouteName, showFilters, settings);
    assert "showFilters" !in PropertyNames;
  }

  /** `getUrl`: no URL for a missing or falsy route name, nor when resolution fails. */
  function GetUrl(routeName: Option<string>, router: Router): (u: Option<Url>)
    ensures u.Some? ==> routeName.Some? && Truthy(Str(routeName.value)) && router(routeName.value) == u
    ensures routeName.Some? && Truthy(Str(routeName.value)) ==> u == router(routeName.value)
  {
    match routeName
    case None => None
    case Some(r) => if Truthy(Str(r)) then router(r) else None
  }

  /** `getCludoUrl`: the URL of the profile's Cludo search page. */
  function CludoUrl(p: Profile, router: Router): Option<Url> {
    GetUrl(Some(p.cludoRouteName), router)
  }

  /** `getViewUrl`: the URL of the listing view the profile replaces. */
  function ViewUrl(p: Profile, router: Router): Option<Url> {
    GetUrl(p.viewRouteName, router)
  }

  /**
   * The Cludo URL depends on the Cludo route name and on what the router
   * says about it, and on nothing else; likewise the view URL on the view route.
   */
  lemma UrlsConsultOnlyTheirRoute(p: Profile, q: Profile, r1: Router, r2: Router)
    ensures p.cludoRouteName == q.cludoRouteName && r1(p.cludoRouteName) == r2(q.cludoRouteName)
      ==> CludoUrl(p, r1) == CludoUrl(q, r2)
    ensures p.viewRouteName == q.viewRouteName
      && (p.viewRouteName.Some? ==> r1(p.viewRouteName.value) == r2(q.viewRouteName.value))
      ==> ViewUrl(p, r1) == ViewUrl(q, r2)
    ensures p.viewRouteName.None? ==> ViewUrl(p, r1).None?
    ensures CludoUrl(p, r1).Some? ==> r1(p.cludoRouteName) == CludoUrl(p, r1)
  {
  }

  /** The profile has its settings snapshot (it was built with a non-empty label). */
  predicate Initialised(p: Profile) {
    p.config.Some?
  }

  function SettingsKey(id: string): string {
    SettingsPrefix + id
  }

  /** `getConfigSettings`: the stored `profiles.<id>` map, or an empty map when none is stored. */
  function ConfigSettings(p: Profile): (m: map<string, Value>)
    requires Initialised(p)
    ensures !Lookup(p.config.value, SettingsKey(p.id)).Dict? ==> m == map[]
    ensures Lookup(p.config.value, SettingsKey(p.id)).Dict? ==> m == p.config.value[SettingsKey(p.id)].entries
    ensures |m| > 0 ==> SettingsKey(p.id) in p.config.value
  {
    var stored := Lookup(p.config.value, SettingsKey(p.id));
    if stored.Dict? then stored.entries else map[]
  }

  /** One editor setting of the profile, or null when it is not stored. */
  function Setting(p: Profile, key: string): Value
    requires Initialised(p)
  {
    Lookup(ConfigSettings(p), key)
  }

  /** `getEnabled`. */
  predicate Enabled(p: Profile)
    requires Initialised(p)
  {
    Truthy(Setting(p, "enabled"))
  }

  /** `getShowTitle`. */
  predicate ShowTitle(p: Profile)
    requires Initialised(p)
  {
    Truthy(Setting(p, "show_title"))
  }

  /** `getTitle` of the profile. */
  function Title(p: Profile): Value
    requires Initialised(p)
  {
    Setting(p, "title")
  }

  /** `getInputPlaceholder`. */
  function InputPlaceholder(p: Profile): Value
    requires Initialised(p)
  {
    Setting(p, "input_placeholder")
  }

  /** The client-side settings handed to the Cludo browser script. */
  datatype JsSettings = JsSettings(
    searchType: string,
    engineId: int,
    language: string,
    searchUrl: Option<Url>,
    searchInputSelectors: seq<string>)

  /** `getJsSettings`. */
  function JsSettingsOf(p: Profile, router: Router): (js: JsSettings)
    ensures js.searchType == p.cludoType && js.engineId == p.cludoEngineId && js.language == p.cludoLanguage
    ensures js.searchUrl.Some? <==> Truthy(Str(p.cludoRouteName)) && router(p.cludoRouteName).Some?
    ensures js.searchUrl.Some? ==> js.searchUrl == router(p.cludoRouteName)
    ensures js.searchInputSelectors == DefaultSelectors
  {
    JsSettings(p.cludoType, p.cludoEngineId, p.cludoLanguage, CludoUrl(p, router), DefaultSelectors)
  }
}

=== FILE: redirects.dfy ===
/** The request-time decision between a Cludo search page and the listing view it replaces. */
module Redirects {
  import opened Wrappers
  import opened Php
  import opened Profiles
  import opened Registry

  /** What the subscriber does with a request. */
  datatype Decision =
    | NoRedirect
    | RedirectTo(url: Url)
      /** `AccessDeniedHttpException` is thrown. */
    | Denied

  predicate AllInitialised(ps: seq<Profile>) {
    forall p <- ps :: Initialised(p)
  }

  /** The `in_array` pre-filter: the route loosely equals the Cludo route or the view route. */
  predicate Considered(route: Option<string>, p: Profile) {
    InArray(route, [Some(p.cludoRouteName), p.viewRouteName])
  }

  /** The branch that breaks out of the loop: the route is this disabled profile's Cludo route. */
  predicate DisabledPrimary(route: Option<string>, p: Profile)
    requires Initialised(p)
  {
    route == Some(p.cludoRouteName) && !Enabled(p)
  }

  /** The branch that sets the target and keeps iterating: the route is this enabled profile's view route. */
  predicate EnabledView(route: Option<string>, p: Profile)
    requires Initialised(p)
  {
    route == p.viewRouteName && Enabled(p)
  }

  /** The outcome once the loop stops at a disabled primary route. */
  function StopOutcome(p: Profile, router: Router): Decision {
    match ViewUrl(p, router)
    case Some(u) => RedirectTo(u)
    case None => Denied
  }

  /** The outcome when `p` was the last enabled profile whose view route matched. */
  function ViewOutcome(p: Profile, router: Router): Decision {
    match CludoUrl(p, router)
    case Some(u) => RedirectTo(u)
    case None => NoRedirect
  }

  /** `url` is where the loop may send the request because of `p`: its view URL or its Cludo URL, by the branch that fires. */
  predicate RedirectSource(route: Option<string>, p: Profile, router: Router, url: Url)
    requires Initialised(p)
  {
    || (DisabledPrimary(route, p) && ViewUrl(p, router) == Some(url))
    || (EnabledView(route, p) && CludoUrl(p, router) == Some(url))
  }

  /**
   * The `foreach` over `ps`, carrying the redirect URL chosen so far. Access
   * is denied only for a disabled profile whose view URL does not resolve,
   * and a redirect goes to the carried URL or to a URL some profile's
   * matching branch produced.
   */
  function Scan(route: Option<string>, ps: seq<Profile>, router: Router, target: Option<Url>): (r: Decision)
    requires AllInitialised(ps)
    ensures r.Denied? ==> exists k | 0 <= k < |ps| :: DisabledPrimary(route, ps[k]) && ViewUrl(ps[k], router).None?
    ensures r.RedirectTo? ==> Some(r.url) == target || exists k | 0 <= k < |ps| :: RedirectSource(route, ps[k], router, r.url)
  {
    if ps == [] then
      (match target case Some(u) => RedirectTo(u) case None => NoRedirect)
    else
      var p := ps[0];
      assert forall k | 0 <= k < |ps| - 1 :: ps[1..][k] == ps[k + 1];
      if !Considered(route, p) then Scan(route, ps[1..], router, target)
      else if route == Some(p.cludoRouteName) && !Enabled(p) then StopOutcome(p, router)
      else if route == p.viewRouteName && Enabled(p) then Scan(route, ps[1..], router, CludoUrl(p, router))
      else Scan(route, ps[1..], router, target)
  }

  /**
   * `detectRedirectType` over the profile list `ps`, for the route name of
   * the request: a denial comes from a disabled profile without a
   * resolvable view, and every redirect goes to a URL a matching profile
   * produced.
   */
  function DetectRedirectType(route: Option<string>, ps: seq<Profile>, router: Router): (r: Decision)
    requires AllInitialised(ps)
    ensures r.Denied? ==> exists k | 0 <= k < |ps| :: DisabledPrimary(route, ps[k]) && ViewUrl(ps[k], router).None?
    ensures r.RedirectTo? ==> exists k | 0 <= k < |ps| :: RedirectSource(route, ps[k], router, r.url)
  {
    Scan(route, ps, router, None)
  }

  /** The route of the request, over the profiles of the registry. */
  function DetectForRegistry(route: Option<string>, settings: Config, router: Router): Decision {
    RegistryInitialised(settings);
    DetectRedirectType(route, GetProfiles(settings), router)
  }

  // ---------------------------------------------------------------------------
  // A declarative account of the same decision.

  /** `k` is the first profile whose disabled Cludo route the request names. */
  ghost predicate StopsAt(route: Option<string>, ps: seq<Profile>, k: int)
    requires AllInitialised(ps)
  {
    && 0 <= k < |ps|
    && DisabledPrimary(route, ps[k])
    && forall j | 0 <= j < k :: !DisabledPrimary(route, ps[j])
  }

  ghost predicate NeverStops(route: Option<string>, ps: seq<Profile>)
    requires AllInitialised(ps)
  {
    forall k | 0 <= k < |ps| :: !DisabledPrimary(route, ps[k])
  }

  /** `j` is the last profile whose enabled view route the request names. */
  ghost predicate LastView(route: Option<string>, ps: seq<Profile>, j: int)
    requires AllInitialised(ps)
  {
    && 0 <= j < |ps|
    && EnabledView(route, ps[j])
    && forall m | j < m < |ps| :: !EnabledView(route, ps[m])
  }

  ghost predicate NoView(route: Option<string>, ps: seq<Profile>)
    requires AllInitialised(ps)
  {
    forall k | 0 <= k < |ps| :: !EnabledView(route, ps[k])
  }

  /** A strict match always passes the loose `in_array` pre-filter. */
  lemma StrictMatchIsConsidered(route: Option<string>, p: Profile)
    ensures route == Some(p.cludoRouteName) || route == p.viewRouteName ==> Considered(route, p)
  {
    if route == Some(p.cludoRouteName) {
      assert LooseEq(route, [Some(p.cludoRouteName), p.viewRouteName][0]);
    } else if route == p.viewRouteName {
      LooseEqCharacterised(route, p.viewRouteName);
      assert LooseEq(route, [Some(p.cludoRouteName), p.viewRouteName][1]);
    }
  }

  /** The carried target after looking at `p`: its Cludo URL when its enabled view route is requested. */
  function NextTarget(route: Option<string>, p: Profile, router: Router, target: Option<Url>): Option<Url>
    requires Initialised(p)
  {
    if EnabledView(route, p) then CludoUrl(p, router) else target
  }

  /** One iteration of the loop: a disabled primary match stops it, anything else moves on. */
  lemma ScanStep(route: Option<string>, ps: seq<Profile>, router: Router, target: Option<Url>)
    requires AllInitialised(ps) && ps != []
    ensures Scan(route, ps, router, target) ==
      if DisabledPrimary(route, ps[0]) then StopOutcome(ps[0], router)
      else Scan(route, ps[1..], router, NextTarget(route, ps[0], router, target))
  {
    StrictMatchIsConsidered(route, ps[0]);
  }

  /** The first disabled primary match decides, whatever target was carried in. */
  lemma {:induction false} ScanStops(route: Option<string>, ps: seq<Profile>, router: Router, target: Option<Url>, k: int)
    requires AllInitialised(ps) && StopsAt(route, ps, k)
    ensures Scan(route, ps, router, target) == StopOutcome(ps[k], router)
    decreases |ps|
  {
    ScanStep(route, ps, router, target);
    if k > 0 {
      var tail := ps[1..];
      assert StopsAt(route, tail, k - 1) by {
        forall j | 0 <= j < k - 1 ensures !DisabledPrimary(route, tail[j]) {
          assert tail[j] == ps[j + 1];
        }
      }
      ScanStops(route, tail, router, NextTarget(route, ps[0], router, target), k - 1);
    }
  }

  /** Without a stop and without an enabled view match, the carried target decides. */
  lemma {:induction false} ScanNoMatch(route: Option<string>, ps: seq<Profile>, router: Router, target: Option<Url>)
    requires AllInitialised(ps) && NeverStops(route, ps) && NoView(route, ps)
    ensures Scan(route, ps, router, target) == (match target case Some(u) => RedirectTo(u) case None => NoRedirect)
    decreases |ps|
  {
    if ps != [] {
      ScanStep(route, ps, router, target);
      var tail := ps[1..];
      assert NeverStops(route, tail) && NoView(route, tail) by {
        forall m | 0 <= m < |tail| ensures !DisabledPrimary(route, tail[m]) && !EnabledView(route, tail[m]) {
          assert tail[m] == ps[m + 1];
        }
      }
      ScanNoMatch(route, tail, router, target);
    }
  }

  /** Without a stop, the last enabled view match decides, whatever target was carried in. */
  lemma {:induction false} ScanLastView(route: Option<string>, ps: seq<Profile>, router: Router, target: Option<Url>, j: int)
    requires AllInitialised(ps) && NeverStops(route, ps) && LastView(route, ps, j)
    ensures Scan(route, ps, router, target) == ViewOutcome(ps[j], router)
    decreases |ps|
  {
    ScanStep(route, ps, router, target);
    var tail := ps[1..];
    var next := NextTarget(route, ps[0], router, target);
    assert NeverStops(route, tail) by {
      forall m | 0 <= m < |tail| ensures !DisabledPrimary(route, tail[m]) {
        assert tail[m] == ps[m + 1];
      }
    }
    if j > 0 {
      assert LastView(route, tail, j - 1) by {
        forall m | j - 1 < m < |tail| ensures !EnabledView(route, tail[m]) {
          assert tail[m] == ps[m + 1];
        }
      }
      ScanLastView(route, tail, router, next, j - 1);
    } else {
      assert NoView(route, tail) by {
        forall m | 0 <= m < |tail| ensures !EnabledView(route, tail[m]) {
          assert tail[m] == ps[m + 1];
        }
      }
      ScanNoMatch(route, tail, router, next);
    }
  }

  /**
   * The scan meets the declarative account: the first disabled primary match
   * decides; without one, the last enabled view match decides; without
   * either, the target carried in is used.
   */
  lemma ScanMeetsSpec(route: Option<string>, ps: seq<Profile>, router: Router, target: Option<Url>)
    requires AllInitialised(ps)
    ensures forall k | StopsAt(route, ps, k) :: Scan(route, ps, router, target) == StopOutcome(ps[k], router)
    ensures NeverStops(route, ps) ==>
      forall j | LastView(route, ps, j) :: Scan(route, ps, router, target) == ViewOutcome(ps[j], router)
    ensures NeverStops(route, ps) && NoView(route, ps) ==>
      Scan(route, ps, router, target) == (match target case Some(u) => RedirectTo(u) case None => NoRedirect)
  {
    forall k | StopsAt(route, ps, k) ensures Scan(route, ps, router, target) == StopOutcome(ps[k], router) {
      ScanStops(route, ps, router, target, k);
    }
    if NeverStops(route, ps) {
      forall j | LastView(route, ps, j) ensures Scan(route, ps, router, target) == ViewOutcome(ps[j], router) {
        ScanLastView(route, ps, router, target, j);
      }
      if NoView(route, ps) {
        ScanNoMatch(route, ps, router, target);
      }
    }
  }

  /** Exactly one of the three situations of the declarative account holds for any route and list. */
  lemma {:induction false} SituationsExhaustive(route: Option<string>, ps: seq<Profile>)
    requires AllInitialised(ps)
    ensures (exists k :: StopsAt(route, ps, k)) || NeverStops(route, ps)
    ensures NeverStops(route, ps) ==> (exists j :: LastView(route, ps, j)) || NoView(route, ps)
    decreases |ps|
  {
    if ps != [] {
      var tail := ps[1..];
      assert forall m | 0 <= m < |tail| :: tail[m] == ps[m + 1];
      SituationsExhaustive(route, tail);
      if DisabledPrimary(route, ps[0]) {
        assert StopsAt(route, ps, 0);
      } else if k' :| StopsAt(route, tail, k') {
        assert StopsAt(route, ps, k' + 1);
      } else {
        assert NeverStops(route, ps);
      }
      if NeverStops(route, ps) {
        assert NeverStops(route, tail);
        if j' :| LastView(route, tail, j') {
          assert LastView(route, ps, j' + 1);
        } else if EnabledView(route, ps[0]) {
          assert LastView(route, ps, 0);
        } else {
          assert NoView(route, ps);
        }
      }
    }
  }

  // ---------------------------------------------------------------------------
  // The decision, case by case.

  /** A route equal to no profile's Cludo route or view route gets no redirect. */
  lemma {:induction false} NoMatchNoRedirect(route: Option<string>, ps: seq<Profile>, router: Router)
    requires AllInitialised(ps)
    requires forall p <- ps :: route != Some(p.cludoRouteName) && route != p.viewRouteName
    ensures DetectRedirectType(route, ps, router) == NoRedirect
  {
    ScanMeetsSpec(route, ps, router, None);
  }

  /**
   * The first disabled profile whose Cludo route is requested decides: a
   * redirect to its view URL when that resolves, access denied otherwise.
   * Nothing after it is looked at.
   */
  lemma DisabledPrimaryDecides(route: Option<string>, ps: seq<Profile>, rest: seq<Profile>, router: Router, k: int)
    requires AllInitialised(ps) && AllInitialised(rest)
    requires StopsAt(route, ps, k)
    ensures ViewUrl(ps[k], router).Some? ==> DetectRedirectType(route, ps, router) == RedirectTo(ViewUrl(ps[k], router).value)
    ensures ViewUrl(ps[k], router).None? ==> DetectRedirectType(route, ps, router) == Denied
    ensures AllInitialised(ps + rest) && DetectRedirectType(route, ps + rest, router) == DetectRedirectType(route, ps, router)
  {
    ScanMeetsSpec(route, ps, router, None);
    var all := ps + rest;
    assert AllInitialised(all);
    assert StopsAt(route, all, k) by {
      assert all[k] == ps[k];
      forall j | 0 <= j < k ensures !DisabledPrimary(route, all[j]) {
        assert all[j] == ps[j];
      }
    }
    ScanMeetsSpec(route, all, router, None);
  }

  /**
   * Without a disabled primary match, the last enabled profile whose view
   * route is requested decides: a redirect to its Cludo URL, or no redirect
   * when that URL does not resolve.
   */
  lemma EnabledViewDecides(route: Option<string>, ps: seq<Profile>, router: Router, j: int)
    requires AllInitialised(ps)
    requires NeverStops(route, ps) && LastView(route, ps, j)
    ensures CludoUrl(ps[j], router).Some? ==> DetectRedirectType(route, ps, router) == RedirectTo(CludoUrl(ps[j], router).value)
    ensures CludoUrl(ps[j], router).None? ==> DetectRedirectType(route, ps, router) == NoRedirect
  {
    ScanMeetsSpec(route, ps, router, None);
  }

  /**
   * An enabled profile's Cludo route and a disabled profile's view route
   * lead nowhere: with only such matches there is no redirect.
   */
  lemma InactiveMatchesNoRedirect(route: Option<string>, ps: seq<Profile>, router: Router)
    requires AllInitialised(ps)
    requires forall p <- ps :: route == Some(p.cludoRouteName) ==> Enabled(p)
    requires forall p <- ps :: route == p.viewRouteName ==> !Enabled(p)
    ensures DetectRedirectType(route, ps, router) == NoRedirect
  {
    ScanMeetsSpec(route, ps, router, None);
    assert NeverStops(route, ps) && NoView(route, ps) by {
      forall k | 0 <= k < |ps| ensures !DisabledPrimary(route, ps[k]) && !EnabledView(route, ps[k]) {
        assert ps[k] in ps;
      }
    }
  }

  /** Without a disabled primary match and without an enabled view match there is no redirect. */
  lemma InactiveViewsNoRedirect(route: Option<string>, ps: seq<Profile>, router: Router)
    requires AllInitialised(ps)
    requires NeverStops(route, ps) && NoView(route, ps)
    ensures DetectRedirectType(route, ps, router) == NoRedirect
  {
    ScanMeetsSpec(route, ps, router, None);
  }

  /**
   * A view match does not stop the loop: when two enabled profiles share the
   * requested view route, the later one's Cludo URL wins, even when it does
   * not resolve and the earlier one's does.
   */
  lemma LaterViewOverwrites(route: Option<string>, p: Profile, q: Profile, router: Router)
    requires Initialised(p) && Initialised(q)
    requires EnabledView(route, p) && EnabledView(route, q)
    ensures DetectRedirectType(route, [p, q], router) == ViewOutcome(q, router)
  {
    ScanMeetsSpec(route, [p, q], router, None);
    assert LastView(route, [p, q], 1);
  }

  /**
   * A request without a route name loosely and strictly equals a null view
   * route, so an enabled profile without a listing view redirects it to its
   * Cludo page.
   */
  lemma NullRouteMatchesMissingView(p: Profile, router: Router)
    requires Initialised(p) && p.viewRouteName.None? && Enabled(p)
    ensures DetectRedirectType(None, [p], router) == ViewOutcome(p, router)
  {
    ScanMeetsSpec(None, [p], router, None);
    assert LastView(None, [p], 0);
  }

  // ---------------------------------------------------------------------------
  // The registry's profiles.

  /** With main disabled, its search page redirects to the editorial listing when that resolves, else is denied. */
  lemma MainDisabledScenario(settings: Config, router: Router)
    requires !Enabled(GetProfile("main", settings).value)
    ensures router("view.editorial_search.page").Some? ==>
      DetectForRegistry(Some("kdb_cludo.search_page.main"), settings, router)
        == RedirectTo(router("view.editorial_search.page").value)
    ensures router("view.editorial_search.page").None? ==>
      DetectForRegistry(Some("kdb_cludo.search_page.main"), settings, router) == Denied
  {
    var route := Some("kdb_cludo.search_page.main");
    var ps := GetProfiles(settings);
    MainListedFirst(settings);
    FirstStopDecides(route, ps, router);
    EditorialViewUrl(ps[0], router);
  }

  /** A profile whose view route is the editorial listing has that listing's URL as its view URL. */
  lemma EditorialViewUrl(p: Profile, router: Router)
    requires p.viewRouteName == Some("view.editorial_search.page")
    ensures StopOutcome(p, router) == match router("view.editorial_search.page")
      case Some(u) => RedirectTo(u)
      case None => Denied
  {
    assert Truthy(Str("view.editorial_search.page"));
  }

  /** A disabled first profile whose Cludo route is requested decides alone. */
  lemma FirstStopDecides(route: Option<string>, ps: seq<Profile>, router: Router)
    requires AllInitialised(ps) && |ps| > 0 && DisabledPrimary(route, ps[0])
    ensures DetectRedirectType(route, ps, router) == StopOutcome(ps[0], router)
  {
    assert StopsAt(route, ps, 0);
    DisabledPrimaryDecides(route, ps, [], router, 0);
  }

  /** The first listed profile is main, with its search page and the editorial listing as routes. */
  lemma MainListedFirst(settings: Config)
    ensures var ps := GetProfiles(settings);
      && AllInitialised(ps)
      && ps[0] == GetProfile("main", settings).value
      && ps[0].cludoRouteName == "kdb_cludo.search_page.main"
      && ps[0].viewRouteName == Some("view.editorial_search.page")
  {
    RegistryInitialised(settings);
  }

  /** With main enabled, the editorial listing redirects to the main search page when that resolves. */
  lemma MainEnabledScenario(settings: Config, router: Router)
    requires Enabled(GetProfile("main", settings).value)
    ensures DetectForRegistry(Some("view.editorial_search.page"), settings, router)
      == (match router("kdb_cludo.search_page.main") case Some(u) => RedirectTo(u) case None => NoRedirect)
  {
    var route := Some("view.editorial_search.page");
    var ps := GetProfiles(settings);
    RegistryInitialised(settings);
    RegistryRoutes(settings);
    MainListedFirst(settings);
    assert NeverStops(route, ps);
    assert LastView(route, ps, 0);
    EnabledViewDecides(route, ps, router, 0);
    MainSearchPageUrl(ps[0], router);
  }

  /** A profile whose Cludo route is the main search page leads there. */
  lemma MainSearchPageUrl(p: Profile, router: Router)
    requires p.cludoRouteName == "kdb_cludo.search_page.main"
    ensures ViewOutcome(p, router) == match router("kdb_cludo.search_page.main")
      case Some(u) => RedirectTo(u)
      case None => NoRedirect
  {
    assert Truthy(Str("kdb_cludo.search_page.main"));
  }

  /**
   * A request with no route name is redirected to the help search page when
   * help is enabled, and to the English help page when that is enabled,
   * since help_en comes later and overwrites the target.
   */
  lemma NullRouteScenario(settings: Config, router: Router)
    ensures var help := GetProfile("help", settings).value;
      var helpEn := GetProfile("help_en", settings).value;
      DetectForRegistry(None, settings, router) ==
        if Enabled(helpEn) then ViewOutcome(helpEn, router)
        else if Enabled(help) then ViewOutcome(help, router)
        else NoRedirect
  {
    var ps := GetProfiles(settings);
    RegistryInitialised(settings);
    forall k | 0 <= k < |ps| ensures ps[k].viewRouteName == Definitions[k].viewRouteName {
      assert ps[k] == Build(Definitions[k], settings);
    }
    assert ps[3] == GetProfile("help", settings).value;
    assert ps[4] == GetProfile("help_en", settings).value;
    assert NeverStops(None, ps);
    if Enabled(ps[4]) {
      assert LastView(None, ps, 4);
      EnabledViewDecides(None, ps, router, 4);
    } else if Enabled(ps[3]) {
      assert LastView(None, ps, 3);
      EnabledViewDecides(None, ps, router, 3);
    } else {
      assert NoView(None, ps) by {
        forall k | 0 <= k < |ps| ensures !EnabledView(None, ps[k]) {
          assert k in {0, 1, 2, 3, 4};
        }
      }
      InactiveViewsNoRedirect(None, ps, router);
    }
  }
}

=== FILE: registry.dfy ===
/** The fixed registry of search profiles and lookup by id. */
module Registry {
  import opened Wrappers
  import opened Php
  import opened Profiles

  /** The profile ids, in registry order. */
  const ProfileIds: seq<string> := ["main", "article", "event", "help", "help_en"]

  /** The constructor arguments of one registry profile. */
  datatype Definition = Definition(
    id: string,
    translatableLabel: string,
    cludoType: string,
    cludoRouteName: string,
    cludoEngineId: int,
    cludoLanguage: string,
    viewId: Option<string>,
    viewRouteName: Option<string>,
    showFilters: bool)

  const MainDefinition := Definition("main", "Main search page (/search/web)", "main",
    "kdb_cludo.search_page.main", 14490, DefaultLanguage, Some("editorial_search"),
    Some("view.editorial_search.page"), false)
  const ArticleDefinition := Definition("article", "Article search page (/articles)", "article",
    "kdb_cludo.search_page.article", 14521, DefaultLanguage, Some("articles"), Some("view.articles.all"), true)
  const EventDefinition := Definition("event", "Events search page (/events)", "event",
    "kdb_cludo.search_page.event", 14520, DefaultLanguage, Some("events"),
    Some("entity.eventinstance.collection"), true)
  const HelpDefinition := Definition("help", "Help search page", "help",
    "kdb_cludo.search_page.help", 11866, DefaultLanguage, None, None, true)
  const HelpEnglishDefinition := Definition("help_en", "Help search page (English)", "help",
    "kdb_cludo.search_page.help_english", 12014, "en", None, None, true)

  /** The definitions, in registry order. */
  const Definitions: seq<Definition> :=
    [MainDefinition, ArticleDefinition, EventDefinition, HelpDefinition, HelpEnglishDefinition]

  /** The `switch` of `getProfile`: the definition for a known id. */
  function DefinitionFor(id: string): (d: Option<Definition>)
    ensures d.Some? <==> id in ProfileIds
    ensures d.Some? ==> d.value.id == id && d.value in Definitions
  {
    if id == "main" then Some(MainDefinition)
    else if id == "article" then Some(ArticleDefinition)
    else if id == "event" then Some(EventDefinition)
    else if id == "help" then Some(HelpDefinition)
    else if id == "help_en" then Some(HelpEnglishDefinition)
    else None
  }

  /** `new CludoProfile(...)` with a definition's arguments. */
  function Build(d: Definition, settings: Config): Profile {
    NewProfile(d.id, d.translatableLabel, d.cludoType, d.cludoRouteName, d.cludoEngineId,
      d.cludoLanguage, d.viewId, d.viewRouteName, d.showFilters, settings)
  }

  /**
   * `getProfile`: exact, case-sensitive lookup among the five profiles, each
   * built against the editor settings `settings`.
   */
  function GetProfile(id: string, settings: Config): (r: Option<Profile>)
    ensures r.Some? <==> id in ProfileIds
    ensures r.Some? ==> r.value.id == id && Initialised(r.value) && r.value.config == Some(settings)
  {
    match DefinitionFor(id)
    case Some(d) =>
      assert Truthy(Str(d.translatableLabel)) by {
        assert d.translatableLabel[0] != '0' && |d.translatableLabel| > 1;
      }
      Some(Build(d, settings))
    case None => None
  }

  /** The ids among `ids` that the lookup knows, in their order in `ids`. */
  function KnownIds(ids: seq<string>): (k: seq<string>)
    ensures |k| <= |ids|
  {
    if ids == [] then []
    else if ids[0] in ProfileIds then [ids[0]] + KnownIds(ids[1..])
    else KnownIds(ids[1..])
  }

  /** `KnownIds` keeps exactly the known ids. */
  lemma {:induction false} KnownIdsMembers(ids: seq<string>)
    ensures forall x :: x in KnownIds(ids) <==> x in ids && x in ProfileIds
  {
    if ids != [] {
      KnownIdsMembers(ids[1..]);
      assert forall x :: x in ids <==> x == ids[0] || x in ids[1..] by {
        assert ids == [ids[0]] + ids[1..];
      }
    }
  }

  /** The loop of `getProfiles`: look each id up, skipping the ones that yield null. */
  function Collect(ids: seq<string>, settings: Config): (r: seq<Profile>)
    ensures |r| <= |ids|
    ensures forall i | 0 <= i < |r| :: GetProfile(r[i].id, settings) == Some(r[i])
  {
    if ids == [] then []
    else
      var rest := Collect(ids[1..], settings);
      match GetProfile(ids[0], settings)
      case Some(p) => [p] + rest
      case None => rest
  }

  /** The loop's result is the lookups of the known ids, in their order in `ids`. */
  lemma {:induction false} CollectInOrder(ids: seq<string>, settings: Config)
    ensures |Collect(ids, settings)| == |KnownIds(ids)|
    ensures forall i | 0 <= i < |Collect(ids, settings)| ::
      Some(Collect(ids, settings)[i]) == GetProfile(KnownIds(ids)[i], settings)
  {
    if ids != [] {
      CollectInOrder(ids[1..], settings);
      var rest := Collect(ids[1..], settings);
      var r := Collect(ids, settings);
      if ids[0] in ProfileIds {
        var k := KnownIds(ids);
        assert r == [GetProfile(ids[0], settings).value] + rest;
        assert k == [ids[0]] + KnownIds(ids[1..]);
        forall i | 0 <= i < |r| ensures Some(r[i]) == GetProfile(k[i], settings) {
          if i > 0 {
            assert r[i] == rest[i - 1] && k[i] == KnownIds(ids[1..])[i - 1];
          }
        }
      } else {
        assert r == rest;
      }
    }
  }

  /** The loop keeps every profile it finds: the lookup of every known id is in the result. */
  lemma CollectKeepsFound(ids: seq<string>, settings: Config)
    ensures forall j | 0 <= j < |ids| && ids[j] in ProfileIds ::
      GetProfile(ids[j], settings).value in Collect(ids, settings)
  {
    CollectInOrder(ids, settings);
    KnownIdsMembers(ids);
    var known := KnownIds(ids);
    forall j | 0 <= j < |ids| && ids[j] in ProfileIds
      ensures GetProfile(ids[j], settings).value in Collect(ids, settings)
    {
      assert ids[j] in known;
      var i :| 0 <= i < |known| && known[i] == ids[j];
      assert Some(Collect(ids, settings)[i]) == GetProfile(ids[j], settings);
    }
  }

  /** When every id is known, nothing is skipped and the order of the ids is kept. */
  lemma {:induction false} CollectKnown(ids: seq<string>, settings: Config)
    requires forall j | 0 <= j < |ids| :: ids[j] in ProfileIds
    ensures |Collect(ids, settings)| == |ids|
    ensures forall i | 0 <= i < |ids| :: Collect(ids, settings)[i] == GetProfile(ids[i], settings).value
  {
    if ids != [] {
      CollectKnown(ids[1..], settings);
      var rest := Collect(ids[1..], settings);
      var r := Collect(ids, settings);
      assert r == [GetProfile(ids[0], settings).value] + rest;
      forall i | 0 <= i < |ids| ensures r[i] == GetProfile(ids[i], settings).value {
        if i > 0 {
          assert r[i] == rest[i - 1] && ids[i] == ids[1..][i - 1];
        }
      }
    }
  }

  /** `getProfiles`: the five profiles, in registry order, each the lookup of its id. */
  function GetProfiles(settings: Config): (r: seq<Profile>)
    ensures |r| == |ProfileIds|
    ensures forall i | 0 <= i < |r| :: r[i].id == ProfileIds[i] && GetProfile(ProfileIds[i], settings) == Some(r[i])
    ensures forall i | 0 <= i < |r| :: r[i] == Build(Definitions[i], settings)
  {
    CollectKnown(ProfileIds, settings);
    Collect(ProfileIds, settings)
  }

  /** Every registry profile carries its settings snapshot. */
  lemma RegistryInitialised(settings: Config)
    ensures forall p <- GetProfiles(settings) :: Initialised(p) && p.config == Some(settings)
  {
  }

  /** The registry's `i`-th profile has the fields of the `i`-th definition. */
  lemma ProfileFields(settings: Config, i: int)
    requires 0 <= i < |ProfileIds|
    ensures var p := GetProfiles(settings)[i]; var d := Definitions[i];
      && p.id == d.id && p.cludoType == d.cludoType && p.cludoRouteName == d.cludoRouteName
      && p.cludoEngineId == d.cludoEngineId && p.cludoLanguage == d.cludoLanguage
      && p.viewId == d.viewId && p.viewRouteName == d.viewRouteName && p.showFilters == d.showFilters
  {
    assert GetProfiles(settings)[i] == Build(Definitions[i], settings);
  }

  /** No two profiles of `ps` share an id, a Cludo route name or an engine id. */
  predicate PairwiseDistinct(ps: seq<Profile>) {
    forall i, j | 0 <= i < j < |ps| ::
      ps[i].id != ps[j].id
      && ps[i].cludoRouteName != ps[j].cludoRouteName
      && ps[i].cludoEngineId != ps[j].cludoEngineId
  }

  /** The definitions' ids, Cludo route names and engine ids are pairwise distinct. */
  lemma DefinitionsDistinct(i: int, j: int)
    requires 0 <= i < j < |Definitions|
    ensures Definitions[i].id != Definitions[j].id
    ensures Definitions[i].cludoRouteName != Definitions[j].cludoRouteName
    ensures Definitions[i].cludoEngineId != Definitions[j].cludoEngineId
  {
    var a := Definitions[i].cludoRouteName;
    var b := Definitions[j].cludoRouteName;
    assert |a| != |b| || a[22] != b[22];
    assert Definitions[i].id[..|Definitions[i].id|] != Definitions[j].id[..|Definitions[j].id|]
      by { assert |Definitions[i].id| != |Definitions[j].id| || Definitions[i].id[0] != Definitions[j].id[0]; }
  }

  /** Profile ids, Cludo route names and engine ids are pairwise distinct across the registry. */
  lemma RegistryDistinct(settings: Config)
    ensures PairwiseDistinct(GetProfiles(settings))
  {
    var ps := GetProfiles(settings);
    forall i, j | 0 <= i < j < |ps|
      ensures ps[i].id != ps[j].id
      ensures ps[i].cludoRouteName != ps[j].cludoRouteName
      ensures ps[i].cludoEngineId != ps[j].cludoEngineId
    {
      ProfileFields(settings, i);
      ProfileFields(settings, j);
      DefinitionsDistinct(i, j);
    }
  }

  /** No definition's Cludo route is any definition's view route, and only main's view is the editorial listing. */
  lemma DefinitionRoutes(i: int, j: int)
    requires 0 <= i < |Definitions| && 0 <= j < |Definitions|
    ensures Some(Definitions[i].cludoRouteName) != Definitions[j].viewRouteName
    ensures Definitions[j].viewRouteName == Some("view.editorial_search.page") <==> j == 0
  {
    assert Definitions[i].cludoRouteName[0] == 'k';
    var v := Definitions[j].viewRouteName;
    assert v.Some? ==> |v.value| > 0 && v.value[0] != 'k';
    assert j > 0 && v.Some? ==> |v.value| != |"view.editorial_search.page"|;
  }

  /**
   * No Cludo route of the registry is also a view route of it, and the
   * editorial listing view belongs to main alone.
   */
  lemma RegistryRoutes(settings: Config)
    ensures var ps := GetProfiles(settings);
      && (forall i, j | 0 <= i < |ps| && 0 <= j < |ps| :: Some(ps[i].cludoRouteName) != ps[j].viewRouteName)
      && (forall j | 0 < j < |ps| :: ps[j].viewRouteName != Some("view.editorial_search.page"))
      && ps[0].viewRouteName == Some("view.editorial_search.page")
      && ps[0].cludoRouteName == "kdb_cludo.search_page.main"
  {
    var ps := GetProfiles(settings);
    forall i, j | 0 <= i < |ps| && 0 <= j < |ps|
      ensures Some(ps[i].cludoRouteName) != ps[j].viewRouteName
      ensures j > 0 ==> ps[j].viewRouteName != Some("view.editorial_search.page")
    {
      ProfileFields(settings, i);
      ProfileFields(settings, j);
      DefinitionRoutes(i, j);
    }
    ProfileFields(settings, 0);
  }

  /** Only main, article and event have a listing view to fall back to. */
  lemma ViewsOnlyForListings(settings: Config)
    ensures forall p <- GetProfiles(settings) ::
      (p.viewId.Some? <==> p.id in ["main", "article", "event"])
      && (p.viewRouteName.Some? <==> p.id in ["main", "article", "event"])
  {
    var ps := GetProfiles(settings);
    forall i | 0 <= i < |ps|
      ensures (ps[i].viewId.Some? <==> ps[i].id in ["main", "article", "event"])
      ensures (ps[i].viewRouteName.Some? <==> ps[i].id in ["main", "article", "event"])
    {
      ProfileFields(settings, i);
    }
  }

  /** The language is English for help_en and the Danish default for every other profile. */
  lemma LanguageByProfile(settings: Config)
    ensures forall p <- GetProfiles(settings) ::
      p.cludoLanguage == (if p.id == "help_en" then "en" else DefaultLanguage)
  {
    var ps := GetProfiles(settings);
    forall i | 0 <= i < |ps|
      ensures ps[i].cludoLanguage == (if ps[i].id == "help_en" then "en" else DefaultLanguage)
    {
      ProfileFields(settings, i);
    }
  }

  // ---------------------------------------------------------------------------
  // The lookup as written: the main case passes a named argument, showFilters,
  // that the profile constructor does not declare.

  /** The named parameters the profile constructor declares. */
  const ConstructorParameters: set<string> := {
    "id", "translatableLabel", "cludoType", "cludoRouteName", "cludoEngineId",
    "cludoLanguage", "viewId", "viewRouteName"
  }

  /** The named arguments each case of the lookup passes to the constructor, in source order. */
  function PassedArguments(id: string): seq<string> {
    var common := ["id", "translatableLabel", "cludoType", "cludoRouteName", "cludoEngineId"];
    if id == "main" then common + ["showFilters", "viewId", "viewRouteName"]
    else if id == "article" || id == "event" then common + ["viewId", "viewRouteName"]
    else if id == "help_en" then common + ["cludoLanguage"]
    else common
  }

  /** The first argument name the callee does not declare, if any. */
  function FirstUnknown(names: seq<string>, declared: set<string>): (u: Option<string>)
    ensures u.None? <==> forall i | 0 <= i < |names| :: names[i] in declared
    ensures u.Some? ==> u.value !in declared && exists i | 0 <= i < |names| :: names[i] == u.value
  {
    if names == [] then None
    else if names[0] !in declared then Some(names[0])
    else
      assert forall i | 1 <= i < |names| :: names[i] == names[1..][i - 1];
      FirstUnknown(names[1..], declared)
  }

  /** The Error PHP raises for a named argument the callee does not declare. */
  function UnknownParameterMessage(name: string): string {
    "Unknown named parameter $" + name
  }

  /** `getProfile` as written: a call with an undeclared named argument raises an Error instead of building the profile. */
  function GetProfileAsWritten(id: string, settings: Config): (r: Result<Option<Profile>>)
    ensures r.Thrown? <==> id in ProfileIds && FirstUnknown(PassedArguments(id), ConstructorParameters).Some?
    ensures r.Ok? ==> r.value == GetProfile(id, settings)
  {
    match DefinitionFor(id)
    case None => Ok(None)
    case Some(d) =>
      match FirstUnknown(PassedArguments(id), ConstructorParameters)
      case Some(name) => Thrown(EngineError(UnknownParameterMessage(name)))
      case None => Ok(GetProfile(id, settings))
  }

  /** The loop of `getProfiles` as written: the first Error ends it. */
  function CollectAsWritten(ids: seq<string>, settings: Config): Result<seq<Profile>> {
    if ids == [] then Ok([])
    else
      match GetProfileAsWritten(ids[0], settings)
      case Thrown(e) => Thrown(e)
      case Ok(found) =>
        match CollectAsWritten(ids[1..], settings)
        case Thrown(e) => Thrown(e)
        case Ok(ps) => Ok(if found.Some? then [found.value] + ps else ps)
  }

  /** The loop as written raises exactly when one of its lookups does, and otherwise agrees with the corrected loop. */
  lemma {:induction false} CollectAsWrittenRaisesIff(ids: seq<string>, settings: Config)
    ensures CollectAsWritten(ids, settings).Thrown? <==>
      exists i | 0 <= i < |ids| :: GetProfileAsWritten(ids[i], settings).Thrown?
    ensures CollectAsWritten(ids, settings).Ok? ==> CollectAsWritten(ids, settings).value == Collect(ids, settings)
  {
    if ids != [] {
      CollectAsWrittenRaisesIff(ids[1..], settings);
      assert forall i | 1 <= i < |ids| :: ids[i] == ids[1..][i - 1];
      if GetProfileAsWritten(ids[0], settings).Thrown? {
        assert CollectAsWritten(ids, settings).Thrown?;
      } else if CollectAsWritten(ids[1..], settings).Thrown? {
        var j :| 0 <= j < |ids[1..]| && GetProfileAsWritten(ids[1..][j], settings).Thrown?;
        assert GetProfileAsWritten(ids[j + 1], settings).Thrown?;
      }
    }
  }

  /**
   * As written, looking up main raises the Error, and so does listing the
   * profiles, since main comes first; the corrected lookup builds main with
   * its own id and listing yields all five profiles.
   */
  lemma MainLookupRaisesAsWritten(settings: Config)
    ensures GetProfileAsWritten("main", settings).Thrown?
    ensures GetProfileAsWritten("main", settings).error == EngineError(UnknownParameterMessage("showFilters"))
    ensures CollectAsWritten(ProfileIds, settings).Thrown?
    ensures GetProfile("main", settings).Some? && GetProfile("main", settings).value.id == "main"
    ensures |GetProfiles(settings)| == 5
  {
    assert "showFilters" !in ConstructorParameters;
    assert FirstUnknown(PassedArguments("main"), ConstructorParameters) == Some("showFilters") by {
      var names := PassedArguments("main");
      assert names[5] == "showFilters";
      assert FirstUnknown(names[5..], ConstructorParameters) == Some("showFilters");
      assert FirstUnknown(names[4..], ConstructorParameters) == Some("showFilters") by { assert names[4..][1..] == names[5..]; }
      assert FirstUnknown(names[3..], ConstructorParameters) == Some("showFilters") by { assert names[3..][1..] == names[4..]; }
      assert FirstUnknown(names[2..], ConstructorParameters) == Some("showFilters") by { assert names[2..][1..] == names[3..]; }
      assert FirstUnknown(names[1..], ConstructorParameters) == Some("showFilters") by { assert names[1..][1..] == names[2..]; }
    }
    assert ProfileIds[0] == "main";
    CollectAsWrittenRaisesIff(ProfileIds, settings);
  }

  /** Every other lookup is unaffected: as written it agrees with the corrected one. */
  lemma OtherLookupsUnaffected(id: string, settings: Config)
    requires id != "main"
    ensures GetProfileAsWritten(id, settings) == Ok(GetProfile(id, settings))
  {
    var names := PassedArguments(id);
    assert forall i | 0 <= i < |names| :: names[i] in ConstructorParameters;
  }
}

=== FILE: render.dfy ===
/** What the two search-page controllers share: request, collaborators, presentation choice and render array. */
module Render {
  import opened Wrappers
  import opened Php
  import opened Profiles

  const CacheTag := "kdb_cludo"
  const BreadcrumbCacheContext := "url.query_args:breadcrumb"
  const Library := "kdb_cludo/base"
  const FilteredTheme := "kdb_cludo_search_page"
  const SimpleTheme := "kdb_cludo_search_page__simple"
  const SubsearchSelectors: seq<string> := ["#cludo-search-input-subsearch"]
  const HelpSelectors: seq<string> := ["#cludo-search-input-help"]

  /** A breadcrumb link: its text and where it points. */
  datatype Link = Link(text: Value, url: Url)

  /** A loaded content node: its id and its own link. */
  datatype Node = Node(nid: Value, link: Link)

  /**
   * The host's collaborators: route resolution, node storage, the breadcrumb
   * helper and the path validator.
   */
  datatype Host = Host(
    router: Router,
    loadNode: Value -> Option<Node>,
    breadcrumbTrail: Node -> seq<Link>,
    validateUrl: string -> Option<Url>)

  /** The parts of the incoming request the controllers read. */
  datatype SearchRequest = SearchRequest(
      /** The `_cludoProfileId` route attribute. */
    profileId: string,
      /** The `breadcrumb` query argument. */
    breadcrumb: Value,
    requestUri: string)

  /** Template and search-input selectors of a page. */
  datatype Presentation = Presentation(theme: string, selectors: seq<string>)

  /**
   * The theme follows `showFilters`; the selectors follow it too, except that
   * help pages always bind to the help input.
   */
  function Present(showFilters: bool, cludoType: string): (r: Presentation)
    ensures r.theme == FilteredTheme <==> showFilters
    ensures r.theme == SimpleTheme <==> !showFilters
    ensures r.selectors == HelpSelectors <==> cludoType == "help"
    ensures r.selectors == SubsearchSelectors <==> showFilters && cludoType != "help"
    ensures r.selectors == DefaultSelectors <==> !showFilters && cludoType != "help"
  {
    var theme := if showFilters then FilteredTheme else SimpleTheme;
    var selectors := if showFilters then SubsearchSelectors else DefaultSelectors;
    Presentation(theme, if cludoType == "help" then HelpSelectors else selectors)
  }

  /** The node named by the `breadcrumb` argument, when the argument is set and the node loads. */
  function BreadcrumbNode(param: Value, host: Host): (n: Option<Node>)
    ensures n.Some? <==> Truthy(param) && host.loadNode(param).Some?
    ensures n.Some? ==> n == host.loadNode(param)
  {
    if Truthy(param) then host.loadNode(param) else None
  }

  /** The helper's trail for a node, or the node's own link when the helper gives none. */
  function NodeTrail(node: Node, host: Host): (links: seq<Link>)
    ensures |links| >= 1
    ensures host.breadcrumbTrail(node) != [] ==> links == host.breadcrumbTrail(node)
    ensures host.breadcrumbTrail(node) == [] ==> links == [node.link]
  {
    var trail := host.breadcrumbTrail(node);
    if trail == [] then [node.link] else trail
  }

  /** The render array of a search page. */
  datatype RenderArray = RenderArray(
    theme: string,
    profile: Profile,
    title: Value,
    breadcrumb: Option<seq<Link>>,
    libraries: seq<string>,
    settings: JsSettings,
    cacheTags: seq<string>,
    cacheContexts: seq<string>,
    inputLabel: Option<Value>)
}

=== FILE: search_base.dfy ===
/**
 * The older search-page controllers: one per profile, each holding its
 * profile and its own `showFilters` flag, reading the editor settings as an
 * array.
 */
module SearchBase {
  import opened Wrappers
  import opened Php
  import opened Profiles
  import opened Registry
  import opened Render
  import SearchPage

  /** Facets and filters are shown unless a controller says otherwise. */
  const DefaultShowFilters := true

  /** A controller: its profile and whether it shows filters. */
  datatype Controller = Controller(profile: Profile, showFilters: bool)

  /**
   * The five controller classes. The profile's opaque `showFilters` field is
   * given the controller's value. The event controller's view route differs
   * from the registry's.
   */
  function Fixtures(settings: Config): (cs: seq<Controller>)
    ensures |cs| == |ProfileIds|
    ensures forall i | 0 <= i < |cs| :: cs[i].profile.id == ProfileIds[i] && Initialised(cs[i].profile)
    ensures forall i | 0 <= i < |cs| :: cs[i].showFilters == (ProfileIds[i] != "main")
  {
    [ Controller(NewProfile("main", "Main search page (/search/web)", "main", "kdb_cludo.search_page.main",
        14490, DefaultLanguage, Some("editorial_search"), Some("view.editorial_search.page"), false, settings), false),
      Controller(NewProfile("article", "Article search page (/articles)", "article", "kdb_cludo.search_page.article",
        14521, DefaultLanguage, Some("articles"), Some("view.articles.all"), DefaultShowFilters, settings), DefaultShowFilters),
      Controller(NewProfile("event", "Events search page (/events)", "event", "kdb_cludo.search_page.event",
        14520, DefaultLanguage, Some("events"), Some("view.events.all"), DefaultShowFilters, settings), DefaultShowFilters),
      Controller(NewProfile("help", "Help search page", "help", "kdb_cludo.search_page.help",
        11866, DefaultLanguage, None, None, DefaultShowFilters, settings), DefaultShowFilters),
      Controller(NewProfile("help_en", "Help search page (English)", "help", "kdb_cludo.search_page.help_english",
        12014, "en", None, None, DefaultShowFilters, settings), DefaultShowFilters) ]
  }

  /** `getTitle`: the stored title, or null when none is stored. */
  function GetTitle(c: Controller): (t: Value)
    requires Initialised(c.profile)
    ensures "title" !in ConfigSettings(c.profile) ==> t == Null
    ensures "title" in ConfigSettings(c.profile) ==> t == ConfigSettings(c.profile)["title"]
  {
    Lookup(ConfigSettings(c.profile), "title")
  }

  /** `page`. */
  function Page(c: Controller, req: SearchRequest, host: Host): (r: Result<RenderArray>)
    requires Initialised(c.profile)
    ensures r.Thrown? <==> !Truthy(Lookup(ConfigSettings(c.profile), "enabled"))
    ensures r.Thrown? ==> r.error == AccessDeniedHttp
    ensures r.Ok? ==>
      var config := ConfigSettings(c.profile);
      var pg := r.value;
      var node := BreadcrumbNode(req.breadcrumb, host);
      && pg.profile == c.profile
      && (pg.theme == FilteredTheme <==> c.showFilters)
      && (pg.theme == SimpleTheme <==> !c.showFilters)
      && (pg.settings.searchInputSelectors == HelpSelectors <==> c.profile.cludoType == "help")
      && (c.profile.cludoType != "help" ==>
            (pg.settings.searchInputSelectors == SubsearchSelectors <==> c.showFilters))
      && (c.profile.cludoType != "help" && !c.showFilters ==> pg.settings.searchInputSelectors == DefaultSelectors)
      && pg.libraries == [Library]
      && pg.settings == JsSettingsOf(c.profile, host.router).(searchInputSelectors := pg.settings.searchInputSelectors)
      && (pg.title != Null ==> Truthy(Lookup(config, "show_title")) && pg.title == GetTitle(c))
      && (Truthy(Lookup(config, "show_title")) ==> pg.title == GetTitle(c))
      && (pg.inputLabel.Some? <==> Truthy(Lookup(config, "input_placeholder")))
      && (pg.inputLabel.Some? ==> pg.inputLabel.value == Lookup(config, "input_placeholder"))
      && pg.cacheTags == [CacheTag] + (if node.Some? then ["node:" + Interpolate(node.value.nid)] else [])
      && (pg.breadcrumb.Some? <==> node.Some?)
      && (node.Some? ==> pg.breadcrumb == Some(NodeTrail(node.value, host)))
      && pg.cacheContexts == []
  {
    var config := ConfigSettings(c.profile);
    if !Truthy(Lookup(config, "enabled")) then Thrown(AccessDeniedHttp)
    else
      var node := BreadcrumbNode(req.breadcrumb, host);
      var tags := [CacheTag] + (if node.Some? then ["node:" + Interpolate(node.value.nid)] else []);
      var breadcrumb := if node.Some? then Some(NodeTrail(node.value, host)) else None;
      var look := Present(c.showFilters, c.profile.cludoType);
      var js := JsSettingsOf(c.profile, host.router);
      var placeholder := Lookup(config, "input_placeholder");
      Ok(RenderArray(
        look.theme,
        c.profile,
        if Truthy(Lookup(config, "show_title")) then GetTitle(c) else Null,
        breadcrumb,
        [Library],
        js.(searchInputSelectors := look.selectors),
        tags,
        [],
        if Truthy(placeholder) then Some(placeholder) else None))
  }

  /**
   * The controllers carry the registry's profiles, except that the event
   * controller names `view.events.all` where the registry names
   * `entity.eventinstance.collection`; their `showFilters` flags agree.
   */
  lemma FixturesMatchRegistry(settings: Config)
    ensures var cs := Fixtures(settings);
      var ps := GetProfiles(settings);
      && cs[0].profile == ps[0] && cs[1].profile == ps[1]
      && cs[2].profile == ps[2].(viewRouteName := Some("view.events.all"))
      && cs[3].profile == ps[3] && cs[4].profile == ps[4]
      && ps[2].viewRouteName == Some("entity.eventinstance.collection")
    ensures forall i | 0 <= i < |Fixtures(settings)| ::
      Fixtures(settings)[i].showFilters == GetProfiles(settings)[i].showFilters
  {
    var cs := Fixtures(settings);
    var ps := GetProfiles(settings);
    FixtureMatches(settings, 0);
    FixtureMatches(settings, 1);
    FixtureMatches(settings, 2);
    FixtureMatches(settings, 3);
    FixtureMatches(settings, 4);
    forall i | 0 <= i < |cs| ensures cs[i].showFilters == ps[i].showFilters {
      FixtureMatches(settings, i);
    }
  }

  /** The i-th controller's profile against the i-th registry profile. */
  lemma FixtureMatches(settings: Config, i: int)
    requires 0 <= i < |ProfileIds|
    ensures var c := Fixtures(settings)[i];
      var p := GetProfile(ProfileIds[i], settings).value;
      && (i != 2 ==> c.profile == p)
      && (i == 2 ==>
            && c.profile == p.(viewRouteName := Some("view.events.all"))
            && p.viewRouteName == Some("entity.eventinstance.collection"))
      && c.showFilters == p.showFilters
      && GetProfiles(settings)[i] == p
  {
  }

  /**
   * For the same profile and settings, the older and the newer controller
   * agree on access, theme, selectors, client settings and label, and on the
   * title except that the newer one shows an empty title where the older
   * shows none; they differ in cache metadata and breadcrumb.
   */
  lemma ControllersAgree(c: Controller, req: SearchRequest, settings: Config, host: Host)
    requires GetProfile(req.profileId, settings).Some?
    requires GetProfile(req.profileId, settings).value.(viewRouteName := c.profile.viewRouteName) == c.profile
    requires c.showFilters == c.profile.showFilters
    ensures var old_ := Page(c, req, host);
      var new_ := SearchPage.Page(req, settings, host);
      && (old_.Thrown? <==> new_.Thrown?)
      && (old_.Ok? ==>
            && old_.value.theme == new_.value.theme
            && old_.value.settings == new_.value.settings
            && (old_.value.title != Null ==> new_.value.title == old_.value.title)
            && (old_.value.title == Null ==> new_.value.title == Null || new_.value.title == Str(""))
            && old_.value.inputLabel == new_.value.inputLabel)
  {
  }

  /** Each of the five controllers agrees with the newer controller serving its registry id, the event controller included. */
  lemma FixturesAgree(settings: Config, i: int, req: SearchRequest, host: Host)
    requires 0 <= i < |ProfileIds| && req.profileId == ProfileIds[i]
    ensures var c := Fixtures(settings)[i];
      var old_ := Page(c, req, host);
      var new_ := SearchPage.Page(req, settings, host);
      && (old_.Thrown? <==> new_.Thrown?)
      && (old_.Ok? ==>
            && old_.value.theme == new_.value.theme
            && old_.value.settings == new_.value.settings
            && old_.value.inputLabel == new_.value.inputLabel)
  {
    FixtureMatches(settings, i);
    ControllersAgree(Fixtures(settings)[i], req, settings, host);
  }
}

=== FILE: search_page.dfy ===
/** The search-page controller that resolves its profile from the route. */
module SearchPage {
  import opened Wrappers
  import opened Php
  import opened Profiles
  import opened Registry
  import opened Render

  /** `getTitle`: the profile's title, or the empty string when there is no profile or no title. */
  function GetTitle(req: SearchRequest, settings: Config): (t: Value)
    ensures GetProfile(req.profileId, settings).None? ==> t == Str("")
    ensures GetProfile(req.profileId, settings).Some? ==>
      var title := Title(GetProfile(req.profileId, settings).value);
      t == (if title == Null then Str("") else title)
  {
    match GetProfile(req.profileId, settings)
    case None => Str("")
    case Some(p) => var title := Title(p); if title == Null then Str("") else title
  }

  /**
   * The breadcrumb: the node's trail, preceded by a link to the current page
   * when the current URL validates.
   */
  function Breadcrumb(req: SearchRequest, settings: Config, host: Host): (b: Option<seq<Link>>)
    ensures b.Some? <==> BreadcrumbNode(req.breadcrumb, host).Some?
    ensures b.Some? ==>
      var tail := NodeTrail(BreadcrumbNode(req.breadcrumb, host).value, host);
      && |b.value| >= |tail| >= 1
      && b.value[|b.value| - |tail|..] == tail
      && (host.validateUrl(req.requestUri).Some? <==> |b.value| == |tail| + 1)
      && (host.validateUrl(req.requestUri).Some? ==>
            b.value[0] == Link(GetTitle(req, settings), host.validateUrl(req.requestUri).value))
      && (host.validateUrl(req.requestUri).None? ==> b.value == tail)
  {
    match BreadcrumbNode(req.breadcrumb, host)
    case None => None
    case Some(node) =>
      var links := NodeTrail(node, host);
      match host.validateUrl(req.requestUri)
      case Some(u) => Some([Link(GetTitle(req, settings), u)] + links)
      case None => Some(links)
  }

  /** `page`. */
  function Page(req: SearchRequest, settings: Config, host: Host): (r: Result<RenderArray>)
    ensures r.Thrown? <==>
      GetProfile(req.profileId, settings).None? || !Enabled(GetProfile(req.profileId, settings).value)
    ensures r.Thrown? ==> r.error == AccessDeniedHttp
    ensures r.Ok? ==>
      var p := GetProfile(req.profileId, settings).value;
      var pg := r.value;
      var js := JsSettingsOf(p, host.router);
      && pg.profile == p
      && (pg.theme == FilteredTheme <==> p.showFilters)
      && (pg.theme == SimpleTheme <==> !p.showFilters)
      && (pg.settings.searchInputSelectors == HelpSelectors <==> p.cludoType == "help")
      && (p.cludoType != "help" ==>
            pg.settings.searchInputSelectors == (if p.showFilters then SubsearchSelectors else js.searchInputSelectors))
      && pg.settings == js.(searchInputSelectors := pg.settings.searchInputSelectors)
      && (ShowTitle(p) ==> pg.title == GetTitle(req, settings))
      && (!ShowTitle(p) ==> pg.title == Null)
      && (pg.inputLabel.Some? <==> Truthy(InputPlaceholder(p)))
      && (pg.inputLabel.Some? ==> pg.inputLabel.value == InputPlaceholder(p))
      && pg.breadcrumb == Breadcrumb(req, settings, host)
      && pg.cacheTags == [CacheTag]
      && pg.cacheContexts == [BreadcrumbCacheContext]
      && pg.libraries == [Library]
  {
    match GetProfile(req.profileId, settings)
    case None => Thrown(AccessDeniedHttp)
    case Some(p) =>
      if !Enabled(p) then Thrown(AccessDeniedHttp)
      else
        var look := Present(p.showFilters, p.cludoType);
        var js := JsSettingsOf(p, host.router);
        var placeholder := InputPlaceholder(p);
        Ok(RenderArray(
          look.theme,
          p,
          if ShowTitle(p) then GetTitle(req, settings) else Null,
          Breadcrumb(req, settings, host),
          [Library],
          js.(searchInputSelectors := look.selectors),
          [CacheTag],
          [BreadcrumbCacheContext],
          if Truthy(placeholder) then Some(placeholder) else None))
  }
}

=== FILE: wrappers.dfy ===
/** Failure-carrying datatypes shared by the whole model. */
module Wrappers {

  /** A value that may be missing; stands in for PHP's nullable types. */
  datatype Option<+T> = None | Some(value: T)

  /** The exceptions the module throws or lets through. */
  datatype Exception =
    | AccessDeniedHttp
    | InvalidArgument(message: string)
    | Runtime(message: string)
      /** Whatever the HTTP client threw; passed on unchanged. */
    | ClientFailure(message: string)
      /** An engine error, such as reading a typed property that was never assigned. */
    | EngineError(message: string)

  /** How a PHP call ends: it returns a value or it throws. */
  datatype Result<+T> = Ok(value: T) | Thrown(error: Exception)
}
